=== FILE: README.md ===
# BetterVersioning.net — a Dafny model of the version catalog and its resolution rules

BetterVersioning.net is an ASP.NET Core API-versioning convention. An
application declares its major versions once, each as a `BetterVersion` with
its minor versions and a supported/deprecated flag. Endpoints carry `[From]`
and `[Until]` attributes. At startup the convention resolves each controller's
and each action's bounds against the declared catalog. It assigns the
supported and deprecated versions that fall in range, and it rejects
inconsistent bounds and duplicate routes.

This project models that core as pure functions over immutable data and
proves properties of it:

| file | module | models |
|---|---|---|
| `wrappers.dfy` | `Wrappers`, `Errors` | `Option`, `Result`, `Outcome`; one error constructor per failure kind the code throws |
| `sequences.dfy` | `Sequences` | distinctness and subsequence facts, and LINQ `Where` as an order-preserving filter |
| `api_version.dfy` | `ApiVersion` | `ApiVersion` as a (major, minor) pair of 16-bit naturals, ordered lexicographically |
| `models.dfy` | `Models` | the `BetterVersion` constructor (both as documented and as written) and `BetterVersioningOptions` |
| `versions.dfy` | `Versions` | the `Versions` catalog: construction, bound checks, `GetVersions`, `ApplyVersionFilters` |
| `extensions.dfy` | `BetterVersionsExtensions` | `ToApiVersions` |
| `convention.dfy` | `ConventionBuilder` | `BetterVersioningConventionBuilder.ApplyTo` and its validations, bound inheritance and duplicate-route detection |
| `scenarios.dfy` | `Scenarios` | concrete cases: the example application's declarations and its `BetterVersionsController` |

Exceptions are modelled as `Failure(e)` results. A C# `null` is `None`.
`ApplyTo`'s side effects on the framework's convention builder become its
result: either `PassedThrough` (the controller is left to the framework), or
`Versioned` with the supported and deprecated lists assigned to the controller
and to each action.

## Model

| member | source | states |
|---|---|---|
| Models.RejectsMinors | src/Models/BetterVersion.cs:35 | The test `Length != Distinct().Count()` fires exactly when a minors list is given and repeats a value; a null list is never rejected. |
| Models.NewBetterVersion | src/Models/BetterVersion.cs:33-47 | The documented constructor. It fails (with the duplicate-minors error) exactly when the given minors repeat a value. It stores the major unchanged. `Supported` is false only for an explicit `false`. The minors always contain 0 and no duplicates. No minors gives exactly `[0]`. Given minors give exactly {0} ∪ given, of length n when 0 was given and n+1 otherwise. |
| Models.NewBetterVersionAsWritten | src/Models/BetterVersion.cs:33-47 | The code as written. It has the same failure and `Supported` behaviour (it fails with the duplicate-minors error exactly when the given minors repeat a value), but the minors hold at most one entry, without duplicates, and every entry is 0. No minors gives exactly `[0]`; given minors give `[0]` when 0 was given and nothing otherwise. |
| Models.ZeroPrepended | src/Models/BetterVersion.cs:42-45 | For duplicate-free minors without 0, the documented constructor yields 0 followed by the given minors in their given order. |
| Models.AsWrittenDiverges | src/Models/BetterVersion.cs:45 | On every duplicate-free minors list both constructors succeed. They agree exactly when the list is `[0]`; on every other list the code as written yields strictly fewer minors. |
| Models.AsWrittenFailsConstructorTests | BetterVersioning.net.Tests/Models/BetterVersionTests.cs:24-58 | On the constructor tests' inputs, the as-written constructor yields no minor at all for `[1]` and only `[0]` for `[0, 1]`. |
| Models.DocumentedDefaultsToZero | BetterVersioning.net.Tests/Models/BetterVersionTests.cs:8-22 | Without minors, the documented constructor yields the single minor 0, with `Supported` defaulting to true. |
| Models.DocumentedAddsZero | BetterVersioning.net.Tests/Models/BetterVersionTests.cs:24-40 | Test case `[1]`: the result is `[0, 1]`. |
| Models.DocumentedAddsZeroToTwo | BetterVersioning.net.Tests/Models/BetterVersionTests.cs:24-40 | Test case `[1, 2]`, deprecated: the result is `[0, 1, 2]`. |
| Models.DocumentedKeepsGivenZero | BetterVersioning.net.Tests/Models/BetterVersionTests.cs:42-58 | Test case `[0, 1]`: the result keeps the given list unchanged. |
| ApiVersion.LessIsStrictTotalOrder | src/Versions.cs:93-99 | The pair order behind the `>=`, `<=` and `<` filters is a strict total order, and `<=` is the negation of the reversed `<`. |
| Versions.Build | src/Versions.cs:13-33 | Construction fails exactly when two declarations share a major, whatever their supported flags. The error names a major that occurs twice. Otherwise the result is the catalog: each declaration's versions are appended, in declaration and minor order, to the list its flag selects. |
| Versions.FlattenMembers | src/Versions.cs:19-28 | A version is in the supported (deprecated) list exactly when a supported (deprecated) declaration with its major lists its minor. |
| Versions.CatalogIsDisjoint | src/Versions.cs:17-27 | With distinct majors, no version is both supported and deprecated. |
| Versions.CatalogSize | src/Versions.cs:26-27 | The two lists together hold exactly as many versions as the declarations list minors; nothing is dropped or merged. |
| Versions.ApplyVersionFilters | src/Versions.cs:91-103 | A version survives exactly when it is at or above `from` and, with an `until`, below it (at or below it when the until is inclusive). Every survivor keeps its multiplicity. The result is an order-preserving subsequence of the input and equals one filter by the combined predicate. |
| Versions.GetVersions | src/Versions.cs:41-82 | A null `from` fails first. With an `until`, `from > until` fails, and `from == until` fails unless the until is inclusive. These checks guard both lists. On success each list holds exactly the catalog versions in range, as a subsequence of its catalog list. |
| Versions.WiderAdmitsMore | src/Versions.cs:93-99 | Lowering `from`, raising or removing `until`, or switching the until to inclusive only admits more versions. |
| Versions.WiderStaysOrdered | src/Versions.cs:68-77 | A widened range of an accepted range is accepted by the bound checks. |
| Versions.WideningOnlyAdds | src/Versions.cs:41-103 | Each result of a narrower query is a subsequence of the corresponding result of a wider query. |
| Versions.FromMinimumIsWholeCatalog | src/Versions.cs:91-103 | From a version no catalog entry precedes, with no until, the query returns the catalog unchanged. |
| Versions.ResultsKeepCatalogOrder | src/Versions.cs:91-103 | Ascending catalog lists give ascending results. |
| Versions.ResultsAreDisjoint | src/Versions.cs:41-56 | On a built catalog, no version is returned as both supported and deprecated. |
| BetterVersionsExtensions.ToApiVersions | src/Extensions/BetterVersionsExtensions.cs:15-31 | The output length is the number of declarations plus the number of listed minors. |
| BetterVersionsExtensions.ToApiVersionsAppend | src/Extensions/BetterVersionsExtensions.cs:18-28 | Flattening a concatenation is the concatenation of the flattenings, so declarations contribute in order. |
| BetterVersionsExtensions.OneDeclaration | src/Extensions/BetterVersionsExtensions.cs:20-26 | One declaration contributes (major, 0) followed by (major, m) for each listed m, in order. |
| BetterVersionsExtensions.SupportedFlagIgnored | src/Extensions/BetterVersionsExtensions.cs:15-31 | Declarations that differ only in their supported flags flatten identically. |
| BetterVersionsExtensions.ListedZeroAppearsTwice | src/Extensions/BetterVersionsExtensions.cs:20-25 | There is no deduplication: a declaration that lists minor 0 puts (major, 0) in the output at least twice. |
| BetterVersionsExtensions.ToApiVersionsVersusCatalog | src/Extensions/BetterVersionsExtensions.cs:15-31 | The output is one entry per declaration longer than the two catalog lists together. Its members are the catalog versions plus (major, 0) for each declared major. |
| BetterVersionsExtensions.MemberVersusCatalog | src/Extensions/BetterVersionsExtensions.cs:18-27 | A version is in the output exactly when it is in the supported or the deprecated list, or it is (major, 0) for a declared major. |
| BetterVersionsExtensions.SameVersionsAsCatalog | src/Extensions/BetterVersionsExtensions.cs:15-31 | For declarations that list minor 0, the output holds exactly the versions of the catalog. |
| ConventionBuilder.SetMethodVersions | src/BetterVersioningConventionBuilder.cs:96-111 | Each action in turn is validated and resolved against its own bounds, falling back to the controller's. On success there is one result per action, in action order. The loop succeeds exactly when every action does. |
| ConventionBuilder.FirstFailureReported | src/BetterVersioningConventionBuilder.cs:99-106 | A failing loop reports the error of its first failing action: every action before that one succeeds. |
| ConventionBuilder.DuplicatesFound | src/BetterVersioningConventionBuilder.cs:56-75 | Grouping by template finds a duplicate exactly when some template occurs twice, or when both the null and the empty template occur. |
| ConventionBuilder.NullOrEmptyGroups | src/BetterVersioningConventionBuilder.cs:66-69 | There is more than one null-or-empty group exactly when both null and `""` occur. |
| ConventionBuilder.ApplyTo | src/BetterVersioningConventionBuilder.cs:25-48 | A controller is passed through exactly when it has neither a from nor an until; actions are not consulted. `until <= from` on the controller fails even with an inclusive until. An until without a from fails for the missing from. An action from below the controller's from makes the whole controller fail; a `MethodBeforeController` error names the controller's from and the from of an action below it, and an earlier failing action's error is reported first. A versioned result holds the controller's resolution and, for each action, the resolution of its inherited bounds, with every action from at or above the controller's. It has no duplicate routes when detection is on. The private helpers are modelled as `ShouldConventionApply` (lines 84-87), `ValidateUntilAfterFrom` (lines 149-156), `ValidateMethodFrom` (lines 134-141) and `SetMethodVersion` (the loop body, lines 100-109); their behaviour is stated through this contract. |
| ConventionBuilder.AcceptedExactlyWhen | src/BetterVersioningConventionBuilder.cs:25-48 | A controller is versioned successfully exactly when all of these hold: it has a from strictly below any until; every action's from is not below the controller's; every action's inherited range passes the bound checks; and, with detection on, no route template repeats. |
| ConventionBuilder.ResolutionIgnoresDetection | src/Versions.cs:66-103 | Resolving a range reads only the inclusivity switch. |
| ConventionBuilder.MethodResolutionIgnoresDetection | src/BetterVersioningConventionBuilder.cs:96-111 | Nor does resolving every action read the detection switch. |
| ConventionBuilder.DuplicateCheckComesLast | src/BetterVersioningConventionBuilder.cs:36-41 | With detection on, the outcome is the outcome with detection off, except that a versioned controller with duplicate templates fails. |
| ConventionBuilder.ActionVersionsNotBeforeController | src/BetterVersioningConventionBuilder.cs:102-106 | Every version assigned to an action is at or after the controller's from. |
| Scenarios.SixCatalogIsBuilt | src/Versions.cs:19-28 | Major 6 with minors 0, 1 and 2, supported, builds the supported list (6,0), (6,1), (6,2). |
| Scenarios.ExclusiveUntil | src/Versions.cs:97-99 | On that catalog, from 6.0 until 6.1 exclusive is just (6,0). |
| Scenarios.InclusiveUntil | src/Versions.cs:97-98 | With an inclusive until it is (6,0) and (6,1). |
| Scenarios.CrossMajor | src/Versions.cs:93-99 | From 31.1 until 33.0 exclusive crosses from major 31 into 32 on the full pair order and stops before 33. |
| Scenarios.ChildBeforeParent | src/BetterVersioningConventionBuilder.cs:134-141 | An action from 5.0 under a controller from 6.0 fails, naming both, whatever the catalog and options. |
| Scenarios.EmptyRoutesCollide | src/BetterVersioningConventionBuilder.cs:38-41 | Two actions routed at `""` fail with detection on and are accepted with it off. |
| Scenarios.NullAndEmptyRoutesCollide | src/BetterVersioningConventionBuilder.cs:69 | A template-less attribute and an empty template collide. |
| Scenarios.ExampleCatalogIsBuilt | example/Program.cs:22-31 | The example application's eight declarations have distinct majors and build the listed catalog: 34.0–34.6 and 37.0 supported; 1.0, 2.0, 6.0, 31.0–31.3, 32.0, 32.1 and 33.0 deprecated. |
| Scenarios.ExampleDeclarationsAreConstructed | example/Program.cs:22-31 | The documented constructor builds those declarations from the application's arguments. |
| Scenarios.AsWrittenDeclarationsAreConstructed | src/Models/BetterVersion.cs:43-45 | From the application's eight argument lists the code as written builds the same majors and flags, but majors 31, 32 and 34 get no minors at all. |
| Scenarios.AsWrittenSupportedCatalog | src/Models/BetterVersion.cs:45 | With those declarations the only supported version left is 37.0. |
| Scenarios.AsWrittenDeprecatedCatalog | src/Models/BetterVersion.cs:45 | With those declarations the deprecated list is 1.0, 2.0, 6.0 and 33.0: majors 31 and 32 are gone. |
| Scenarios.AsWrittenCatalogIsBuilt | src/Versions.cs:19-28 | Those declarations build exactly the catalog with 37.0 supported and 1.0, 2.0, 6.0, 33.0 deprecated. |
| Scenarios.ExampleControllerNeedsInclusiveUntil | example/Controllers/BetterVersionsController.cs:15-16 | With an exclusive until, the action `Until(6)` under `From(6)` fails the whole controller, whatever the catalog. |
| Scenarios.ExampleTemplatesDistinct | example/Controllers/BetterVersionsController.cs:12-34 | The controller's six templates are distinct, and only one of them is null. |
| Scenarios.ExampleTemplatesCollected | example/Controllers/BetterVersionsController.cs:12-34 | The templates are collected in action order. |
| Scenarios.ExampleControllerAccepted | example/Controllers/BetterVersionsController.cs:9-34 | With an inclusive until the controller is versioned, whatever the catalog. |
| Scenarios.ExampleFromSix | example/Controllers/BetterVersionsController.cs:9 | Over the example catalog, from 6.0 leaves out only 1.0 and 2.0. |
| Scenarios.ExampleNewOnlyMinors | example/Controllers/BetterVersionsController.cs:27-30 | Over the example catalog, the `new-only-minors` bounds 34.1 up to and including 34.2 give exactly those two supported versions. |
| Scenarios.ExampleControllerInclusive | example/Program.cs:34 | Under the application's options, the controller gets the whole catalog from 6.0 on, and the `new-only-minors` action gets exactly 34.1 and 34.2. |
| Scenarios.AsWrittenNewOnlyMinors | src/Models/BetterVersion.cs:45 | Over the catalog the code as written builds, the `new-only-minors` bounds 34.1 to 34.2 hold no version. |
| Scenarios.AsWrittenLosesNewOnlyMinors | src/Models/BetterVersion.cs:45 | So under the code as written, the controller is still accepted over the catalog its declarations build, but the `new-only-minors` action is assigned no version. |

## Left out

- ASP.NET Core plumbing: `ApiVersionConventionBuilder`, the controller and action convention builders, `HasApiVersions` and `HasDeprecatedApiVersions`. These only receive the lists `ApplyTo` computes; the model returns those lists instead. The framework's own `ApplyTo` on a passed-through controller is not modelled, so its boolean result is not either.
- Reflection over `ControllerModel`/`ActionModel` attributes (src/Extensions/ApiVersionExtensions.cs): a controller or action is given directly as its From, Until and route templates. The `From` and `Until` attribute classes only build a version whose minor defaults to 0; the scenarios write those versions out.
- `ApiVersion`'s internals are a foreign library: group dates, status strings and parsing. The order is assumed to be lexicographic on (major, minor). For comparisons with a null operand, a non-null version is assumed greater than null. So the controller check `until <= from` with no from, and the method check `from < controllerFrom` with no controller from, never fire.
- Laziness of `IEnumerable` and LINQ: results are finite sequences. The filters have no side effects, so evaluation order does not matter. The bound checks throw eagerly, as in the code.
- Exception types and messages: one error constructor per failure kind. `from > until` and the exclusive `from == until` share one error constructor.
- BetterVersionsExtensions.ToApiVersions: the branch for a null `MinorVersions` is not modelled. Neither constructor can leave the minors null, so the branch is dead.
- No sorting and no check of an action's until against the controller's until: the code has neither, so the model adds neither.
- The example application's hosting, Swagger set-up and `VersionController` (which uses the framework's own attributes) are not part of this model.

## Findings

| source | as written | input that shows it | evidently intended | confidence | as-written member | corrected member |
|---|---|---|---|---|---|---|
| src/Models/BetterVersion.cs:45 | `new ushort[] { 0 }.Intersect(minorVersions)` keeps only a given 0 | `new BetterVersion(1, new ushort[] {1})` yields no minors, where the tests expect `[0, 1]`; `{0, 1}` yields `[0]`, where they expect two minors | `{ 0 }.Union(minorVersions)`: 0 is always added to the given minors, as the doc comments at lines 17 and 42 and the constructor tests state | not executed | Models.NewBetterVersionAsWritten (with Models.AsWrittenDiverges, Models.AsWrittenFailsConstructorTests) | Models.NewBetterVersion (with Models.ZeroPrepended, Models.DocumentedAddsZero, Models.DocumentedKeepsGivenZero) |

Under the code as written, the example application's majors 31, 32 and 34
have no versions at all: 34 drops out of the supported list
(`Scenarios.AsWrittenSupportedCatalog`) and 31 and 32 out of the deprecated
list (`Scenarios.AsWrittenDeprecatedCatalog`). The
controller's `new-only-minors` action (`From(34, 1)`, `Until(34, 2)`) is
then assigned no version (`Scenarios.AsWrittenLosesNewOnlyMinors`). The rest of the model uses the
documented constructor.

=== FILE: api_version.dfy ===
/** The (major, minor) version pairs the whole system is about. The source
    uses the foreign `ApiVersion` class, whose code is not part of this model;
    for the values this library builds (a major and a minor, no group date or
    status) its comparison is taken to be the lexicographic order below.
 */
module ApiVersion {
  import opened Sequences

  /** C#'s `ushort`: both parts of a version are unsigned 16-bit numbers. */
  newtype u16 = x: int | 0 <= x < 0x1_0000

  datatype Version = Version(major: u16, minor: u16)

  /** `a < b`: compare the majors, and the minors when the majors are equal. */
  predicate Less(a: Version, b: Version) {
    a.major < b.major || (a.major == b.major && a.minor < b.minor)
  }

  /** `a <= b`. */
  predicate LessEq(a: Version, b: Version) {
    Less(a, b) || a == b
  }

  /** Strictly increasing in version order (so also free of duplicates). */
  predicate Ascending(s: seq<Version>) {
    forall i, j :: 0 <= i < j < |s| ==> Less(s[i], s[j])
  }

  /** `Less` is a strict total order: irreflexive, transitive and connected. */
  lemma LessIsStrictTotalOrder()
    ensures forall a :: !Less(a, a)
    ensures forall a, b, c :: Less(a, b) && Less(b, c) ==> Less(a, c)
    ensures forall a, b :: a != b ==> Less(a, b) || Less(b, a)
    ensures forall a, b :: LessEq(a, b) <==> !Less(b, a)
  {
  }

  /** Deleting elements from an ascending sequence leaves it ascending. */
  lemma {:induction false} SubsequenceKeepsAscending(a: seq<Version>, b: seq<Version>)
    requires IsSubsequence(a, b)
    requires Ascending(b)
    ensures Ascending(a)
    decreases |b|
  {
    if |b| == 0 {
    } else if IsSubsequence(a, b[..|b| - 1]) {
      SubsequenceKeepsAscending(a, b[..|b| - 1]);
    } else {
      var a', b' := a[..|a| - 1], b[..|b| - 1];
      SubsequenceKeepsAscending(a', b');
      SubsequenceMembers(a', b');
      forall i | 0 <= i < |a'|
        ensures Less(a'[i], a[|a| - 1])
      {
        assert a'[i] in b';
        var k :| 0 <= k < |b'| && b'[k] == a'[i];
        assert b[k] == a'[i];
      }
    }
  }

  /** A sequence whose neighbours are in order is ascending. */
  lemma {:induction false} AscendingByNeighbours(s: seq<Version>)
    requires forall i :: 0 <= i < |s| - 1 ==> Less(s[i], s[i + 1])
    ensures Ascending(s)
    decreases |s|
  {
    if |s| > 1 {
      var init := s[..|s| - 1];
      AscendingByNeighbours(init);
      forall i | 0 <= i < |s| - 1
        ensures Less(s[i], s[|s| - 1])
      {
        assert init[i] == s[i];
        if i < |s| - 2 {
          assert Less(init[i], init[|s| - 2]);
        }
      }
    }
  }

  /** The last element of an ascending sequence is its greatest. */
  lemma AscendingLastIsGreatest(a: seq<Version>, x: Version)
    requires Ascending(a)
    requires x in a
    ensures LessEq(x, a[|a| - 1])
    ensures x != a[|a| - 1] ==> x in a[..|a| - 1]
  {
    var k :| 0 <= k < |a| && a[k] == x;
    if k < |a| - 1 {
      assert a[..|a| - 1][k] == x;
    }
  }

  /** An ascending sequence is determined by its elements. */
  lemma {:induction false} AscendingDeterminedByElements(a: seq<Version>, b: seq<Version>)
    requires Ascending(a) && Ascending(b)
    requires forall x :: x in a <==> x in b
    ensures a == b
    decreases |a| + |b|
  {
    assert |a| > 0 ==> a[0] in b;
    assert |b| > 0 ==> b[0] in a;
    if |a| > 0 && |b| > 0 {
      var la, lb := a[|a| - 1], b[|b| - 1];
      AscendingLastIsGreatest(b, la);
      AscendingLastIsGreatest(a, lb);
      assert la == lb;
      var a', b' := a[..|a| - 1], b[..|b| - 1];
      forall x
        ensures x in a' <==> x in b'
      {
        if x in a' {
          var k :| 0 <= k < |a'| && a'[k] == x;
          assert Less(a[k], la);
          AscendingLastIsGreatest(b, x);
        }
        if x in b' {
          var k :| 0 <= k < |b'| && b'[k] == x;
          assert Less(b[k], lb);
          AscendingLastIsGreatest(a, x);
        }
      }
      AscendingDeterminedByElements(a', b');
      assert a == a' + [la] && b == b' + [lb];
    }
  }
}

=== FILE: convention.dfy ===
/** `BetterVersioningConventionBuilder.ApplyTo`
    (src/BetterVersioningConventionBuilder.cs) with the web framework's
    controller and action models reduced to the attributes the convention
    reads: the From and Until versions of the controller and of each action,
    and the route template of each HTTP-method attribute of each action.
 */
module ConventionBuilder {
  import opened Wrappers
  import opened Errors
  import opened ApiVersion
  import opened Sequences
  import opened Models
  import opened Versions

  /** An action: its own From and Until (None when the attribute is absent)
      and the template of each of its HTTP-method attributes (None for an
      attribute without a template, such as a bare `[HttpGet]`). */
  datatype Action = Action(from: Option<Version>, until: Option<Version>, templates: seq<Option<string>>)

  /** A controller: its own From and Until, and its actions in order. */
  datatype Controller = Controller(from: Option<Version>, until: Option<Version>, actions: seq<Action>)

  /** What `ApplyTo` did with a controller: left it to the framework's own
      convention, or assigned versions to it and to each of its actions. */
  datatype Applied =
    | PassedThrough
    | Versioned(controller: Partition, actions: seq<Partition>)

  /** `ShouldConventionApply`: the controller itself carries a From or an Until. */
  predicate ShouldConventionApply(from: Option<Version>, until: Option<Version>) {
    from.Some? || until.Some?
  }

  /** `ValidateUntilGreaterOrEqualThanFrom`: an until at or below the from is
      rejected whatever the inclusivity option. An until is never at or below
      a missing from, because the foreign `ApiVersion` comparison ranks null
      lowest. */
  function ValidateUntilAfterFrom(from: Option<Version>, until: Option<Version>): Outcome<Error> {
    if until.Some? && from.Some? && LessEq(until.value, from.value) then
      Fail(RangeOrder(from.value, until.value))
    else
      Pass
  }

  /** `ValidateMethodVersionEqualOrGreaterThanControllerVersion`: a method's
      own from must not lie before the controller's from. */
  function ValidateMethodFrom(controllerFrom: Option<Version>, methodFrom: Option<Version>): Outcome<Error> {
    if methodFrom.Some? && controllerFrom.Some? && Less(methodFrom.value, controllerFrom.value) then
      Fail(MethodBeforeController(methodFrom.value, controllerFrom.value))
    else
      Pass
  }

  /** C#'s `own ?? inherited`. */
  function Inherit(own: Option<Version>, inherited: Option<Version>): Option<Version> {
    if own.Some? then own else inherited
  }

  /** The body of the loop in `SetMethodVersions` for one action: validate its
      from, then resolve its own bounds or, where absent, the controller's. */
  function SetMethodVersion(cat: Partition, opts: Options, c: Controller, a: Action): Result<Partition, Error> {
    match ValidateMethodFrom(c.from, a.from)
    case Fail(e) => Failure(e)
    case Pass => GetVersions(cat, opts, Inherit(a.from, c.from), Inherit(a.until, c.until))
  }

  /** `SetMethodVersions`: every action in order; the first failure aborts. */
  function SetMethodVersions(cat: Partition, opts: Options, c: Controller, actions: seq<Action>)
    : (r: Result<seq<Partition>, Error>)
    ensures r.Success? ==>
              && |r.value| == |actions|
              && forall i :: 0 <= i < |actions| ==> SetMethodVersion(cat, opts, c, actions[i]) == Success(r.value[i])
    ensures r.Success? <==> forall i :: 0 <= i < |actions| ==> SetMethodVersion(cat, opts, c, actions[i]).Success?
    decreases |actions|
  {
    if |actions| == 0 then
      Success([])
    else
      var init, a := actions[..|actions| - 1], actions[|actions| - 1];
      assert forall k :: 0 <= k < |init| ==> init[k] == actions[k];
      var earlier := SetMethodVersions(cat, opts, c, init);
      if earlier.Failure? then
        Failure(earlier.error)
      else
        var last := SetMethodVersion(cat, opts, c, a);
        if last.Failure? then
          Failure(last.error)
        else
          Success(earlier.value + [last.value])
  }

  /** A failure is the error of the first failing action: every action
      before it succeeds. */
  lemma {:induction false} FirstFailureReported(cat: Partition, opts: Options, c: Controller, actions: seq<Action>)
    requires SetMethodVersions(cat, opts, c, actions).Failure?
    ensures exists i :: && 0 <= i < |actions|
                        && SetMethodVersion(cat, opts, c, actions[i]) == Failure(SetMethodVersions(cat, opts, c, actions).error)
                        && forall k :: 0 <= k < i ==> SetMethodVersion(cat, opts, c, actions[k]).Success?
    decreases |actions|
  {
    var init, a := actions[..|actions| - 1], actions[|actions| - 1];
    var e := SetMethodVersions(cat, opts, c, actions).error;
    var earlier := SetMethodVersions(cat, opts, c, init);
    assert forall k :: 0 <= k < |init| ==> actions[k] == init[k];
    if earlier.Failure? {
      assert e == earlier.error;
      FirstFailureReported(cat, opts, c, init);
      var i :| && 0 <= i < |init|
               && SetMethodVersion(cat, opts, c, init[i]) == Failure(e)
               && forall k :: 0 <= k < i ==> SetMethodVersion(cat, opts, c, init[k]).Success?;
      assert SetMethodVersion(cat, opts, c, actions[i]) == Failure(e);
    } else {
      var i := |init|;
      assert SetMethodVersion(cat, opts, c, actions[i]) == Failure(e);
      assert forall k :: 0 <= k < i ==> SetMethodVersion(cat, opts, c, init[k]).Success?;
    }
  }

  /** The route templates of all HTTP-method attributes of all actions. */
  function RouteTemplates(actions: seq<Action>): seq<Option<string>>
    decreases |actions|
  {
    if |actions| == 0 then [] else RouteTemplates(actions[..|actions| - 1]) + actions[|actions| - 1].templates
  }

  /** `string.IsNullOrEmpty`. */
  predicate IsNullOrEmpty(t: Option<string>) {
    t.None? || t.value == ""
  }

  /** The grouping test of `DetectDuplicates`: a template group with more
      than one member, or more than one group whose key is null or empty. */
  function DuplicatesFound(ts: seq<Option<string>>): (found: bool)
    ensures found <==> HasDuplicates(ts) || (None in ts && Some("") in ts)
  {
    DuplicatesIffRepeatedElement(ts);
    NullOrEmptyGroups(ts);
    || (exists t :: t in ts && multiset(ts)[t] > 1)
    || |set t | t in ts && IsNullOrEmpty(t)| > 1
  }

  /** The null-or-empty groups are the null group and the `""` group, so
      there are two of them exactly when both keys occur. */
  lemma NullOrEmptyGroups(ts: seq<Option<string>>)
    ensures |set t | t in ts && IsNullOrEmpty(t)| > 1 <==> None in ts && Some("") in ts
  {
    var keys := set t | t in ts && IsNullOrEmpty(t);
    assert keys <= {None, Some("")};
    if None in ts && Some("") in ts {
      assert keys == {None, Some("")};
    } else if None in ts {
      assert keys == {None};
    } else if Some("") in ts {
      assert keys == {Some("")};
    } else {
      assert keys == {};
    }
  }

  /** `ApplyTo(controllerModel)`: validate the controller's own bounds; leave
      a controller without From and Until to the framework; otherwise resolve
      the controller's versions, then each action's, and finally, when
      `DetectDuplicatesAtStartup` is set, reject duplicate route templates. */
  function ApplyTo(cat: Partition, opts: Options, c: Controller): (r: Result<Applied, Error>)
    ensures r == Success(PassedThrough) <==> c.from.None? && c.until.None?
    ensures c.from.Some? && c.until.Some? && LessEq(c.until.value, c.from.value) ==>
              r == Failure(RangeOrder(c.from.value, c.until.value))
    ensures c.from.None? && c.until.Some? ==> r == Failure(MissingFrom)
    ensures (exists i :: && 0 <= i < |c.actions| && c.from.Some? && c.actions[i].from.Some?
                         && Less(c.actions[i].from.value, c.from.value)) ==> r.Failure?
    ensures r.Failure? && r.error.MethodBeforeController? ==>
              && c.from == Some(r.error.controllerFrom)
              && Less(r.error.methodFrom, r.error.controllerFrom)
              && exists i :: 0 <= i < |c.actions| && c.actions[i].from == Some(r.error.methodFrom)
    ensures r.Success? && r.value.Versioned? ==>
              && c.from.Some?
              && (c.until.Some? ==> Less(c.from.value, c.until.value))
              && GetVersions(cat, opts, c.from, c.until) == Success(r.value.controller)
              && |r.value.actions| == |c.actions|
              && (forall i :: 0 <= i < |c.actions| && c.actions[i].from.Some? ==>
                    LessEq(c.from.value, c.actions[i].from.value))
              && (forall i :: 0 <= i < |c.actions| ==>
                    GetVersions(cat, opts, Inherit(c.actions[i].from, c.from), Inherit(c.actions[i].until, c.until))
                    == Success(r.value.actions[i]))
              && (opts.detectDuplicatesAtStartup ==> !DuplicatesFound(RouteTemplates(c.actions)))
  {
    match ValidateUntilAfterFrom(c.from, c.until)
    case Fail(e) => Failure(e)
    case Pass =>
      if !ShouldConventionApply(c.from, c.until) then
        Success(PassedThrough)
      else
        var controllerVersions :- GetVersions(cat, opts, c.from, c.until);
        var actionVersions :- (if SetMethodVersions(cat, opts, c, c.actions).Failure?
                                 then FirstFailureReported(cat, opts, c, c.actions);
                                      SetMethodVersions(cat, opts, c, c.actions)
                                 else SetMethodVersions(cat, opts, c, c.actions));
        if opts.detectDuplicatesAtStartup && DuplicatesFound(RouteTemplates(c.actions)) then
          Failure(DuplicateEndpoints)
        else
          Success(Versioned(controllerVersions, actionVersions))
  }

  /** Resolution reads only the inclusivity switch of the options. */
  lemma ResolutionIgnoresDetection(cat: Partition, opts: Options, from: Option<Version>, until: Option<Version>)
    ensures GetVersions(cat, opts, from, until)
            == GetVersions(cat, opts.(detectDuplicatesAtStartup := false), from, until)
  {
    if from.Some? {
      var quiet := opts.(detectDuplicatesAtStartup := false);
      WhereExtensional(cat.supported, Admits(opts, from.value, until), Admits(quiet, from.value, until));
      WhereExtensional(cat.deprecated, Admits(opts, from.value, until), Admits(quiet, from.value, until));
    }
  }

  /** So does the resolution of every action. */
  lemma {:induction false} MethodResolutionIgnoresDetection(cat: Partition, opts: Options, c: Controller, actions: seq<Action>)
    ensures SetMethodVersions(cat, opts, c, actions)
            == SetMethodVersions(cat, opts.(detectDuplicatesAtStartup := false), c, actions)
    decreases |actions|
  {
    if |actions| > 0 {
      var a := actions[|actions| - 1];
      MethodResolutionIgnoresDetection(cat, opts, c, actions[..|actions| - 1]);
      ResolutionIgnoresDetection(cat, opts, Inherit(a.from, c.from), Inherit(a.until, c.until));
    }
  }

  /** Duplicate detection is the last step: with it switched on, the outcome
      is the outcome without it, except that a fully versioned controller
      with duplicate templates fails. */
  lemma DuplicateCheckComesLast(cat: Partition, opts: Options, c: Controller)
    requires opts.detectDuplicatesAtStartup
    ensures var without := ApplyTo(cat, opts.(detectDuplicatesAtStartup := false), c);
            ApplyTo(cat, opts, c)
            == if without.Success? && without.value.Versioned? && DuplicatesFound(RouteTemplates(c.actions))
               then Failure(DuplicateEndpoints)
               else without
  {
    ResolutionIgnoresDetection(cat, opts, c.from, c.until);
    MethodResolutionIgnoresDetection(cat, opts, c, c.actions);
  }

  /** Every version assigned to an action, supported or deprecated, is at or
      after the controller's from. */
  lemma ActionVersionsNotBeforeController(cat: Partition, opts: Options, c: Controller, i: nat, v: Version)
    requires ApplyTo(cat, opts, c).Success? && ApplyTo(cat, opts, c).value.Versioned?
    requires i < |c.actions|
    requires v in ApplyTo(cat, opts, c).value.actions[i].supported
             || v in ApplyTo(cat, opts, c).value.actions[i].deprecated
    ensures LessEq(c.from.value, v)
  {
    var a := c.actions[i];
    var from := Inherit(a.from, c.from).value;
    assert LessEq(c.from.value, from);
    assert LessEq(from, v);
  }

  /** An action whose own from is not before the controller's and whose
      resolved range is ordered. */
  predicate ActionAccepted(opts: Options, c: Controller, a: Action)
    requires c.from.Some?
  {
    && (a.from.Some? ==> LessEq(c.from.value, a.from.value))
    && (Inherit(a.until, c.until).Some? ==>
          RangeOrdered(opts, Inherit(a.from, c.from).value, Inherit(a.until, c.until).value))
  }

  /** A versioned controller is accepted exactly when its own from is set
      and lies strictly before its until, every action is accepted, and,
      when detection is on, no two endpoints share a route template. */
  lemma AcceptedExactlyWhen(cat: Partition, opts: Options, c: Controller)
    ensures (ApplyTo(cat, opts, c).Success? && ApplyTo(cat, opts, c).value.Versioned?) <==>
              && c.from.Some?
              && (c.until.Some? ==> Less(c.from.value, c.until.value))
              && (forall i :: 0 <= i < |c.actions| ==> ActionAccepted(opts, c, c.actions[i]))
              && (opts.detectDuplicatesAtStartup ==> !DuplicatesFound(RouteTemplates(c.actions)))
  {
    if c.from.Some? {
      forall i | 0 <= i < |c.actions|
        ensures SetMethodVersion(cat, opts, c, c.actions[i]).Success? <==> ActionAccepted(opts, c, c.actions[i])
      {
      }
    }
  }
}

=== FILE: extensions.dfy ===
/** `ToApiVersions` (src/Extensions/BetterVersionsExtensions.cs): every
    declaration, supported or not, becomes its major with minor 0 followed by
    its major with each listed minor. Nothing is deduplicated.
 */
module BetterVersionsExtensions {
  import opened ApiVersion
  import opened Models
  import opened Versions

  /** The flattened list of every declared version. */
  function ToApiVersions(ds: seq<BetterVersion>): (r: seq<Version>)
    ensures |r| == |ds| + MinorCount(ds)
    decreases |ds|
  {
    if |ds| == 0 then
      []
    else
      var last := ds[|ds| - 1];
      ToApiVersions(ds[..|ds| - 1]) + [Version(last.major, 0)] + Expand(last)
  }

  /** Flattening distributes over concatenation: each declaration's block
      appears in declaration order. */
  lemma {:induction false} ToApiVersionsAppend(a: seq<BetterVersion>, b: seq<BetterVersion>)
    ensures ToApiVersions(a + b) == ToApiVersions(a) + ToApiVersions(b)
    decreases |b|
  {
    if |b| > 0 {
      var b', last := b[..|b| - 1], b[|b| - 1];
      var block := [Version(last.major, 0)] + Expand(last);
      assert (a + b)[..|a + b| - 1] == a + b';
      assert (a + b)[|a + b| - 1] == last;
      assert ToApiVersions(a + b) == ToApiVersions(a + b') + block;
      assert ToApiVersions(b) == ToApiVersions(b') + block;
      ToApiVersionsAppend(a, b');
    } else {
      assert a + b == a;
    }
  }

  /** One declaration's block: (major, 0), then (major, m) for each listed
      minor m, in order. */
  lemma OneDeclaration(d: BetterVersion)
    ensures ToApiVersions([d]) == [Version(d.major, 0)] + Expand(d)
  {
    assert [d][..0] == [];
  }

  /** The supported flag plays no part: declarations that agree on majors and
      minors flatten alike. */
  lemma {:induction false} SupportedFlagIgnored(ds: seq<BetterVersion>, es: seq<BetterVersion>)
    requires |ds| == |es|
    requires forall i :: 0 <= i < |ds| ==> ds[i].major == es[i].major && ds[i].minors == es[i].minors
    ensures ToApiVersions(ds) == ToApiVersions(es)
    decreases |ds|
  {
    if |ds| > 0 {
      SupportedFlagIgnored(ds[..|ds| - 1], es[..|es| - 1]);
    }
  }

  /** When a declaration lists minor 0 itself, (major, 0) appears twice. */
  lemma ListedZeroAppearsTwice(ds: seq<BetterVersion>, i: nat)
    requires i < |ds|
    requires 0 in ds[i].minors
    ensures multiset(ToApiVersions(ds))[Version(ds[i].major, 0)] >= 2
  {
    var d, zero := ds[i], Version(ds[i].major, 0);
    var k :| 0 <= k < |d.minors| && d.minors[k] == 0;
    assert Expand(d)[k] == zero;
    OneDeclaration(d);
    assert ds == ds[..i] + [d] + ds[i + 1..];
    ToApiVersionsAppend(ds[..i], [d]);
    ToApiVersionsAppend(ds[..i] + [d], ds[i + 1..]);
    var block := [zero] + Expand(d);
    assert multiset(block)[zero] >= 2 by {
      assert multiset(block) == multiset{zero} + multiset(Expand(d));
      assert zero in multiset(Expand(d));
    }
    assert ToApiVersions(ds) == ToApiVersions(ds[..i]) + block + ToApiVersions(ds[i + 1..]);
  }

  /** Membership against the catalog, one version at a time. */
  lemma {:induction false} MemberVersusCatalog(ds: seq<BetterVersion>, v: Version)
    ensures v in ToApiVersions(ds) <==>
              || v in Flatten(ds, true)
              || v in Flatten(ds, false)
              || (v.minor == 0 && exists i :: 0 <= i < |ds| && ds[i].major == v.major)
    decreases |ds|
  {
    if |ds| > 0 {
      var init, last := ds[..|ds| - 1], ds[|ds| - 1];
      MemberVersusCatalog(init, v);
      assert ToApiVersions(ds) == ToApiVersions(init) + [Version(last.major, 0)] + Expand(last);
      assert Flatten(ds, last.supported) == Flatten(init, last.supported) + Expand(last);
      assert Flatten(ds, !last.supported) == Flatten(init, !last.supported);
      if v.minor == 0 && exists i :: 0 <= i < |ds| && ds[i].major == v.major {
        var i :| 0 <= i < |ds| && ds[i].major == v.major;
        if i < |init| {
          assert init[i].major == v.major;
        }
      }
      if v.minor == 0 && exists i :: 0 <= i < |init| && init[i].major == v.major {
        var i :| 0 <= i < |init| && init[i].major == v.major;
        assert ds[i].major == v.major;
      }
    }
  }

  /** Against the catalog: the flattened list is every catalog version plus
      one (major, 0) per declaration, so it is |ds| longer than the two
      catalog lists together. */
  lemma ToApiVersionsVersusCatalog(ds: seq<BetterVersion>)
    ensures |ToApiVersions(ds)| == |ds| + |CatalogOf(ds).supported| + |CatalogOf(ds).deprecated|
    ensures forall v :: v in ToApiVersions(ds) <==>
              || v in CatalogOf(ds).supported
              || v in CatalogOf(ds).deprecated
              || (v.minor == 0 && exists i :: 0 <= i < |ds| && ds[i].major == v.major)
  {
    CatalogSize(ds);
    forall v
      ensures v in ToApiVersions(ds) <==>
                || v in CatalogOf(ds).supported
                || v in CatalogOf(ds).deprecated
                || (v.minor == 0 && exists i :: 0 <= i < |ds| && ds[i].major == v.major)
    {
      MemberVersusCatalog(ds, v);
    }
  }

  /** For declarations that list minor 0 (as the documented constructor
      ensures), the flattened list holds exactly the catalog's versions. */
  lemma SameVersionsAsCatalog(ds: seq<BetterVersion>, v: Version)
    requires forall i :: 0 <= i < |ds| ==> 0 in ds[i].minors
    ensures v in ToApiVersions(ds) <==> v in CatalogOf(ds).supported || v in CatalogOf(ds).deprecated
  {
    ToApiVersionsVersusCatalog(ds);
    if v.minor == 0 && exists i :: 0 <= i < |ds| && ds[i].major == v.major {
      var i :| 0 <= i < |ds| && ds[i].major == v.major;
      FlattenMembers(ds, ds[i].supported, v);
    }
  }
}

=== FILE: models.dfy ===
/** The declaration record `BetterVersion` (src/Models/BetterVersion.cs) and
    the policy switches of `BetterVersioningOptions`
    (src/Models/BetterVersioningOptions.cs).

    The constructor's documentation promises that minor version 0 is always
    added to the given minors, but the code computes `{ 0 }.Intersect(minors)`,
    which keeps at most a 0. Both are modelled: `NewBetterVersion` is the
    documented constructor that the rest of the model uses, and
    `NewBetterVersionAsWritten` is the code as it stands.
 */
module Models {
  import opened Wrappers
  import opened Errors
  import opened ApiVersion
  import opened Sequences

  /** A major version, the minor versions it includes and whether it is
      still supported (`false` meaning deprecated). */
  datatype BetterVersion = BetterVersion(major: u16, minors: seq<u16>, supported: bool)

  /** The policy switches of the library. */
  datatype Options = Options(untilInclusive: bool, detectDuplicatesAtStartup: bool)

  /** `new BetterVersioningOptions()`: an exclusive until, and duplicate routes
      detected at startup. */
  const DefaultOptions := Options(untilInclusive := false, detectDuplicatesAtStartup := true)

  /** `s` with every occurrence of `x` removed. */
  function Without(s: seq<u16>, x: u16): (r: seq<u16>)
    ensures forall y :: y in r <==> y in s && y != x
    ensures !HasDuplicates(s) ==> !HasDuplicates(r)
    ensures !HasDuplicates(s) ==> |r| == if x in s then |s| - 1 else |s|
    decreases |s|
  {
    if |s| == 0 then
      []
    else
      var init, last := s[..|s| - 1], s[|s| - 1];
      assert s == init + [last];
      DuplicatesOfSnoc(init, last);
      var rest := Without(init, x);
      if last == x then
        rest
      else
        DuplicatesOfSnoc(rest, last);
        rest + [last]
  }

  /** The documented minor list: 0 first, then the given minors other than 0
      in their given order (`{ 0 }.Union(minors)`). */
  function ImpliedMinors(minors: Option<seq<u16>>): seq<u16> {
    match minors
    case None => [0]
    case Some(ms) => [0] + Without(ms, 0)
  }

  /** The minor list as the code computes it: `{ 0 }.Intersect(minors)`,
      which is `[0]` when 0 was given and empty otherwise. */
  function IntersectedMinors(minors: Option<seq<u16>>): seq<u16> {
    match minors
    case None => [0]
    case Some(ms) => if 0 in ms then [0] else []
  }

  /** The duplicate test of the constructor: `Length != Distinct().Count()`. */
  predicate RejectsMinors(minors: Option<seq<u16>>)
    ensures RejectsMinors(minors) <==> minors.Some? && HasDuplicates(minors.value)
  {
    match minors
    case None => false
    case Some(ms) =>
      DuplicatesIffFewerDistinct(ms);
      |ms| != |Elements(ms)|
  }

  /** The documented constructor `new BetterVersion(major, minors, supported)`.
      `None` stands both for an omitted argument and for an explicit null. */
  function NewBetterVersion(major: u16, minors: Option<seq<u16>>, supported: Option<bool>)
    : (r: Result<BetterVersion, Error>)
    ensures r.Failure? <==> minors.Some? && HasDuplicates(minors.value)
    ensures r.Failure? ==> r.error == DuplicateMinors
    ensures r.Success? ==> r.value.major == major
    ensures r.Success? ==> (r.value.supported <==> supported != Some(false))
    ensures r.Success? ==> 0 in r.value.minors && !HasDuplicates(r.value.minors)
    ensures r.Success? && minors.None? ==> r.value.minors == [0]
    ensures r.Success? && minors.Some? ==>
              forall m :: m in r.value.minors <==> m == 0 || m in minors.value
    ensures r.Success? && minors.Some? ==>
              |r.value.minors| == if 0 in minors.value then |minors.value| else |minors.value| + 1
  {
    if RejectsMinors(minors) then
      Failure(DuplicateMinors)
    else
      var implied := ImpliedMinors(minors);
      assert minors.Some? ==> implied == [0] + Without(minors.value, 0);
      Success(BetterVersion(major, implied, supported.GetOr(true)))
  }

  /** The constructor as written: the duplicate check and the supported
      default are as documented, but the minors are `IntersectedMinors`. */
  function NewBetterVersionAsWritten(major: u16, minors: Option<seq<u16>>, supported: Option<bool>)
    : (r: Result<BetterVersion, Error>)
    ensures r.Failure? <==> minors.Some? && HasDuplicates(minors.value)
    ensures r.Failure? ==> r.error == DuplicateMinors
    ensures r.Success? ==> r.value.major == major
    ensures r.Success? ==> (r.value.supported <==> supported != Some(false))
    ensures r.Success? ==> forall m :: m in r.value.minors ==> m == 0
    ensures r.Success? && minors.Some? ==> (0 in r.value.minors <==> 0 in minors.value)
    ensures r.Success? && minors.None? ==> r.value.minors == [0]
    ensures r.Success? ==> !HasDuplicates(r.value.minors) && |r.value.minors| <= 1
  {
    if RejectsMinors(minors) then
      Failure(DuplicateMinors)
    else
      Success(BetterVersion(major, IntersectedMinors(minors), supported.GetOr(true)))
  }

  /** Removing an element that does not occur changes nothing. */
  lemma {:induction false} WithoutAbsent(s: seq<u16>, x: u16)
    requires x !in s
    ensures Without(s, x) == s
    decreases |s|
  {
    if |s| > 0 {
      WithoutAbsent(s[..|s| - 1], x);
      assert s == s[..|s| - 1] + [s[|s| - 1]];
    }
  }

  /** Given duplicate-free minors without 0, the documented constructor
      yields 0 followed by the given minors in their order. */
  lemma ZeroPrepended(major: u16, ms: seq<u16>, supported: Option<bool>)
    requires !HasDuplicates(ms) && 0 !in ms
    ensures NewBetterVersion(major, Some(ms), supported)
            == Success(BetterVersion(major, [0] + ms, supported.GetOr(true)))
  {
    WithoutAbsent(ms, 0);
  }

  /** The code as written and the documented constructor agree only when
      the given minors are exactly `[0]`; on every other duplicate-free list
      the code yields fewer minors than documented: it drops every given
      non-zero minor, and it drops the implied 0 when 0 was not given. */
  lemma AsWrittenDiverges(major: u16, ms: seq<u16>, supported: Option<bool>)
    requires !HasDuplicates(ms)
    ensures NewBetterVersionAsWritten(major, Some(ms), supported).Success?
    ensures NewBetterVersion(major, Some(ms), supported).Success?
    ensures (NewBetterVersionAsWritten(major, Some(ms), supported)
             == NewBetterVersion(major, Some(ms), supported)) <==> ms == [0]
    ensures ms != [0] ==>
              |NewBetterVersionAsWritten(major, Some(ms), supported).value.minors|
              < |NewBetterVersion(major, Some(ms), supported).value.minors|
  {
    var written := NewBetterVersionAsWritten(major, Some(ms), supported).value;
    var documented := NewBetterVersion(major, Some(ms), supported).value;
    DuplicatesIffFewerDistinct(ms);
    if exists m :: m in ms && m != 0 {
      var m :| m in ms && m != 0;
      assert m in documented.minors && m !in written.minors;
    } else if 0 in ms {
      assert Elements(ms) == {0};
      assert ms == [0] by {
        assert ms[0] in ms;
      }
      assert Without(ms, 0) == [] by {
        assert ms[..0] == [];
      }
      assert written.minors == [0] && documented.minors == [0];
    } else {
      assert Elements(ms) == {};
      assert written.minors == [] && documented.minors == [0];
    }
  }

  /** On the constructor tests' inputs, the code as written: given `[1]` it
      yields no minor at all (the test expects 0 and 1), and given `[0, 1]` it
      yields only `[0]` (the test expects two minors). */
  lemma AsWrittenFailsConstructorTests()
    ensures NewBetterVersionAsWritten(1, Some([1]), Some(true)) == Success(BetterVersion(1, [], true))
    ensures NewBetterVersionAsWritten(2, Some([0, 1]), Some(false)) == Success(BetterVersion(2, [0], false))
  {
    assert Elements([1 as u16]) == {1};
    assert Elements([0 as u16, 1]) == {0, 1};
  }

  /** Without minors the documented constructor yields exactly `[0]`. */
  lemma DocumentedDefaultsToZero()
    ensures NewBetterVersion(1, None, Some(true)) == Success(BetterVersion(1, [0], true))
    ensures NewBetterVersion(2, None, None) == Success(BetterVersion(2, [0], true))
  {
  }

  /** The constructor tests without a 0 pass on the documented constructor:
      0 is added in front of the given minors. */
  lemma DocumentedAddsZero()
    ensures NewBetterVersion(1, Some([1]), Some(true)) == Success(BetterVersion(1, [0, 1], true))
  {
    assert !RejectsMinors(Some([1])) by {
      assert Elements([1 as u16]) == {1};
    }
    assert ImpliedMinors(Some([1])) == [0, 1] by {
      assert Without([1], 0) == [1] by {
        assert [1 as u16][..0] == [];
      }
      assert [0 as u16] + [1] == [0, 1];
    }
  }

  /** The second test without a 0. */
  lemma DocumentedAddsZeroToTwo()
    ensures NewBetterVersion(2, Some([1, 2]), Some(false)) == Success(BetterVersion(2, [0, 1, 2], false))
  {
    assert Elements([1 as u16, 2]) == {1, 2};
    assert Without([1, 2], 0) == [1, 2] by {
      assert [1 as u16, 2][..1] == [1];
      assert [1 as u16][..0] == [];
    }
    assert [0 as u16] + [1, 2] == [0, 1, 2];
  }

  /** The constructor test with a 0 passes on the documented constructor:
      the given list is kept as it is. */
  lemma DocumentedKeepsGivenZero()
    ensures NewBetterVersion(2, Some([0, 1]), Some(false)) == Success(BetterVersion(2, [0, 1], false))
  {
    assert Elements([0 as u16, 1]) == {0, 1};
    assert Without([0, 1], 0) == [1] by {
      assert [0 as u16, 1][..1] == [0];
      assert [0 as u16][..0] == [];
    }
    assert [0 as u16] + [1] == [0, 1];
  }
}

=== FILE: scenarios.dfy ===
/** Concrete scenarios: worked cases of the resolution rules and the
    example application's declarations (example/Program.cs) and controller
    (example/Controllers/BetterVersionsController.cs).
 */
module Scenarios {
  import opened Wrappers
  import opened Errors
  import opened ApiVersion
  import opened Models
  import opened Versions
  import opened ConventionBuilder
  import opened Sequences

  /** Over an ascending list the filter's result is the ascending list of
      the versions in range. */
  lemma FilterResolves(opts: Options, from: Version, until: Option<Version>, vs: seq<Version>, expected: seq<Version>)
    requires Ascending(vs) && Ascending(expected)
    requires forall v :: v in expected <==> v in vs && InRange(opts, from, until, v)
    ensures ApplyVersionFilters(opts, from, until, vs) == expected
  {
    var r := ApplyVersionFilters(opts, from, until, vs);
    SubsequenceKeepsAscending(r, vs);
    AscendingDeterminedByElements(r, expected);
  }

  /** Over an ascending catalog a query's result lists are the ascending
      lists of the catalog versions in range. */
  lemma Resolves(cat: Partition, opts: Options, from: Version, until: Option<Version>,
                 supported: seq<Version>, deprecated: seq<Version>)
    requires Ascending(cat.supported) && Ascending(cat.deprecated)
    requires Ascending(supported) && Ascending(deprecated)
    requires until.Some? ==> RangeOrdered(opts, from, until.value)
    requires forall v :: v in supported <==> v in cat.supported && InRange(opts, from, until, v)
    requires forall v :: v in deprecated <==> v in cat.deprecated && InRange(opts, from, until, v)
    ensures GetVersions(cat, opts, Some(from), until) == Success(Partition(supported, deprecated))
  {
    FilterResolves(opts, from, until, cat.supported, supported);
    FilterResolves(opts, from, until, cat.deprecated, deprecated);
  }

  /** Major 6 with minors 0, 1 and 2, supported. */
  const SixCatalog := Partition([Version(6, 0), Version(6, 1), Version(6, 2)], [])

  lemma SixCatalogIsBuilt()
    ensures CatalogOf([BetterVersion(6, [0, 1, 2], true)]) == SixCatalog
  {
    var d := BetterVersion(6, [0, 1, 2], true);
    assert [d][..0] == [];
    assert Expand(d) == SixCatalog.supported;
  }

  /** An exclusive until stops before (6, 1). */
  lemma ExclusiveUntil()
    ensures GetVersions(SixCatalog, Options(false, true), Some(Version(6, 0)), Some(Version(6, 1)))
            == Success(Partition([Version(6, 0)], []))
  {
    Resolves(SixCatalog, Options(false, true), Version(6, 0), Some(Version(6, 1)), [Version(6, 0)], []);
  }

  /** An inclusive until keeps (6, 1). */
  lemma InclusiveUntil()
    ensures GetVersions(SixCatalog, Options(true, true), Some(Version(6, 0)), Some(Version(6, 1)))
            == Success(Partition([Version(6, 0), Version(6, 1)], []))
  {
    Resolves(SixCatalog, Options(true, true), Version(6, 0), Some(Version(6, 1)),
             [Version(6, 0), Version(6, 1)], []);
  }

  /** Deprecated majors 31 (minors 0 to 3), 32 (minors 0 and 1) and 33. */
  const ThirtiesCatalog :=
    Partition([], [Version(31, 0), Version(31, 1), Version(31, 2), Version(31, 3),
                   Version(32, 0), Version(32, 1), Version(33, 0)])

  /** From (31, 1) until (33, 0), exclusive: the filter crosses from major 31
      into major 32 on the full (major, minor) order and stops before 33. */
  lemma CrossMajor()
    ensures GetVersions(ThirtiesCatalog, DefaultOptions, Some(Version(31, 1)), Some(Version(33, 0)))
            == Success(Partition([], [Version(31, 1), Version(31, 2), Version(31, 3), Version(32, 0), Version(32, 1)]))
  {
    AscendingByNeighbours(ThirtiesCatalog.deprecated);
    AscendingByNeighbours([Version(31, 1), Version(31, 2), Version(31, 3), Version(32, 0), Version(32, 1)]);
    Resolves(ThirtiesCatalog, DefaultOptions, Version(31, 1), Some(Version(33, 0)),
             [], [Version(31, 1), Version(31, 2), Version(31, 3), Version(32, 0), Version(32, 1)]);
  }

  /** A controller from (6, 0) with an action from (5, 0) is rejected before
      the action is resolved. */
  lemma ChildBeforeParent(cat: Partition, opts: Options)
    ensures ApplyTo(cat, opts, Controller(Some(Version(6, 0)), None, [Action(Some(Version(5, 0)), None, [None])]))
            == Failure(MethodBeforeController(Version(5, 0), Version(6, 0)))
  {
  }

  /** Two actions of one controller both routed at `""`. */
  const TwoEmptyRoutes :=
    Controller(Some(Version(6, 0)), None, [Action(None, None, [Some("")]), Action(None, None, [Some("")])])

  /** They are rejected when duplicate detection is on, and accepted when off. */
  lemma EmptyRoutesCollide(cat: Partition)
    ensures ApplyTo(cat, Options(false, true), TwoEmptyRoutes) == Failure(DuplicateEndpoints)
    ensures ApplyTo(cat, Options(false, false), TwoEmptyRoutes).Success?
  {
    var ts := RouteTemplates(TwoEmptyRoutes.actions);
    var acts := TwoEmptyRoutes.actions;
    assert ts == [Some(""), Some("")] by {
      assert acts[..1][..0] == [];
      assert RouteTemplates(acts[..1]) == [Some("")];
    }
    assert ts[0] == ts[1];
  }

  /** A template-less `[HttpGet]` and an `[HttpGet("")]` also collide. */
  lemma NullAndEmptyRoutesCollide()
    ensures DuplicatesFound([None, Some("")])
  {
  }

  /** The declarations of the example application, as the documented
      constructor builds them. */
  const ExampleDeclarations := [
    BetterVersion(1, [0], false),
    BetterVersion(2, [0], false),
    BetterVersion(6, [0], false),
    BetterVersion(31, [0, 1, 2, 3], false),
    BetterVersion(32, [0, 1], false),
    BetterVersion(33, [0], false),
    BetterVersion(34, [0, 1, 2, 3, 4, 5, 6], true),
    BetterVersion(37, [0], true)
  ]

  /** The catalog they build. */
  const ExampleCatalog := Partition(
    [Version(34, 0), Version(34, 1), Version(34, 2), Version(34, 3), Version(34, 4), Version(34, 5), Version(34, 6),
     Version(37, 0)],
    [Version(1, 0), Version(2, 0), Version(6, 0), Version(31, 0), Version(31, 1), Version(31, 2), Version(31, 3),
     Version(32, 0), Version(32, 1), Version(33, 0)])

  /** Both lists of the example catalog are ascending. */
  lemma ExampleCatalogAscending()
    ensures Ascending(ExampleCatalog.supported)
    ensures Ascending(ExampleCatalog.deprecated)
  {
    AscendingByNeighbours(ExampleCatalog.supported);
    AscendingByNeighbours(ExampleCatalog.deprecated);
  }

  lemma ExampleCatalogIsBuilt()
    ensures !HasDuplicateMajor(ExampleDeclarations)
    ensures CatalogOf(ExampleDeclarations) == ExampleCatalog
  {
    ExampleSupportedBuilt();
    ExampleDeprecatedBuilt();
  }

  lemma ExampleSupportedBuilt()
    ensures Flatten(ExampleDeclarations, true) == ExampleCatalog.supported
  {
    var ds := ExampleDeclarations;
    assert ds[..1][..0] == ds[..0];
    assert Expand(ds[0]) == [Version(1, 0)];
    assert Flatten(ds[..1], true) == [];
    assert ds[..2][..1] == ds[..1];
    assert Expand(ds[1]) == [Version(2, 0)];
    assert Flatten(ds[..2], true) == [];
    assert ds[..3][..2] == ds[..2];
    assert Expand(ds[2]) == [Version(6, 0)];
    assert Flatten(ds[..3], true) == [];
    assert ds[..4][..3] == ds[..3];
    assert Expand(ds[3]) == [Version(31, 0), Version(31, 1), Version(31, 2), Version(31, 3)];
    assert Flatten(ds[..4], true) == [];
    assert ds[..5][..4] == ds[..4];
    assert Expand(ds[4]) == [Version(32, 0), Version(32, 1)];
    assert Flatten(ds[..5], true) == [];
    assert ds[..6][..5] == ds[..5];
    assert Expand(ds[5]) == [Version(33, 0)];
    assert Flatten(ds[..6], true) == [];
    assert ds[..7][..6] == ds[..6];
    assert Expand(ds[6]) == [Version(34, 0), Version(34, 1), Version(34, 2), Version(34, 3), Version(34, 4), Version(34, 5), Version(34, 6)];
    assert Flatten(ds[..7], true) == [Version(34, 0), Version(34, 1), Version(34, 2), Version(34, 3), Version(34, 4), Version(34, 5), Version(34, 6)];
    assert ds[..8][..7] == ds[..7];
    assert Expand(ds[7]) == [Version(37, 0)];
    assert Flatten(ds[..8], true) == [Version(34, 0), Version(34, 1), Version(34, 2), Version(34, 3), Version(34, 4), Version(34, 5), Version(34, 6), Version(37, 0)];
    assert ds[..8] == ds;
  }

  lemma ExampleDeprecatedBuilt()
    ensures Flatten(ExampleDeclarations, false) == ExampleCatalog.deprecated
  {
    var ds := ExampleDeclarations;
    assert ds[..1][..0] == ds[..0];
    assert Expand(ds[0]) == [Version(1, 0)];
    assert Flatten(ds[..1], false) == [Version(1, 0)];
    assert ds[..2][..1] == ds[..1];
    assert Expand(ds[1]) == [Version(2, 0)];
    assert Flatten(ds[..2], false) == [Version(1, 0), Version(2, 0)];
    assert ds[..3][..2] == ds[..2];
    assert Expand(ds[2]) == [Version(6, 0)];
    assert Flatten(ds[..3], false) == [Version(1, 0), Version(2, 0), Version(6, 0)];
    assert ds[..4][..3] == ds[..3];
    assert Expand(ds[3]) == [Version(31, 0), Version(31, 1), Version(31, 2), Version(31, 3)];
    assert Flatten(ds[..4], false) == [Version(1, 0), Version(2, 0), Version(6, 0), Version(31, 0), Version(31, 1), Version(31, 2), Version(31, 3)];
    assert ds[..5][..4] == ds[..4];
    assert Expand(ds[4]) == [Version(32, 0), Version(32, 1)];
    assert Flatten(ds[..5], false) == [Version(1, 0), Version(2, 0), Version(6, 0), Version(31, 0), Version(31, 1), Version(31, 2), Version(31, 3), Version(32, 0), Version(32, 1)];
    assert ds[..6][..5] == ds[..5];
    assert Expand(ds[5]) == [Version(33, 0)];
    assert Flatten(ds[..6], false) == [Version(1, 0), Version(2, 0), Version(6, 0), Version(31, 0), Version(31, 1), Version(31, 2), Version(31, 3), Version(32, 0), Version(32, 1), Version(33, 0)];
    assert ds[..7][..6] == ds[..6];
    assert Expand(ds[6]) == [Version(34, 0), Version(34, 1), Version(34, 2), Version(34, 3), Version(34, 4), Version(34, 5), Version(34, 6)];
    assert Flatten(ds[..7], false) == [Version(1, 0), Version(2, 0), Version(6, 0), Version(31, 0), Version(31, 1), Version(31, 2), Version(31, 3), Version(32, 0), Version(32, 1), Version(33, 0)];
    assert ds[..8][..7] == ds[..7];
    assert Expand(ds[7]) == [Version(37, 0)];
    assert Flatten(ds[..8], false) == [Version(1, 0), Version(2, 0), Version(6, 0), Version(31, 0), Version(31, 1), Version(31, 2), Version(31, 3), Version(32, 0), Version(32, 1), Version(33, 0)];
    assert ds[..8] == ds;
  }

  /** The documented constructor builds those declarations from the
      arguments the example application passes. */
  lemma ExampleDeclarationsAreConstructed()
    ensures NewBetterVersion(1, None, Some(false)) == Success(ExampleDeclarations[0])
    ensures NewBetterVersion(2, None, Some(false)) == Success(ExampleDeclarations[1])
    ensures NewBetterVersion(6, None, Some(false)) == Success(ExampleDeclarations[2])
    ensures NewBetterVersion(31, Some([1, 2, 3]), Some(false)) == Success(ExampleDeclarations[3])
    ensures NewBetterVersion(32, Some([1]), Some(false)) == Success(ExampleDeclarations[4])
    ensures NewBetterVersion(33, None, Some(false)) == Success(ExampleDeclarations[5])
    ensures NewBetterVersion(34, Some([1, 2, 3, 4, 5, 6]), Some(true)) == Success(ExampleDeclarations[6])
    ensures NewBetterVersion(37, None, Some(true)) == Success(ExampleDeclarations[7])
  {
    UnlistedMinorsConstructed();
    ThirtyOneConstructed();
    ThirtyTwoConstructed();
    ThirtyFourConstructed();
  }

  lemma UnlistedMinorsConstructed()
    ensures NewBetterVersion(1, None, Some(false)) == Success(BetterVersion(1, [0], false))
    ensures NewBetterVersion(2, None, Some(false)) == Success(BetterVersion(2, [0], false))
    ensures NewBetterVersion(6, None, Some(false)) == Success(BetterVersion(6, [0], false))
    ensures NewBetterVersion(33, None, Some(false)) == Success(BetterVersion(33, [0], false))
    ensures NewBetterVersion(37, None, Some(true)) == Success(BetterVersion(37, [0], true))
  {
  }

  lemma ThirtyOneConstructed()
    ensures NewBetterVersion(31, Some([1, 2, 3]), Some(false)) == Success(BetterVersion(31, [0, 1, 2, 3], false))
  {
    var ms: seq<u16> := [1, 2, 3];
    assert !HasDuplicates(ms) && 0 !in ms;
    ZeroPrepended(31, ms, Some(false));
    assert [0] + ms == [0, 1, 2, 3];
  }

  lemma ThirtyTwoConstructed()
    ensures NewBetterVersion(32, Some([1]), Some(false)) == Success(BetterVersion(32, [0, 1], false))
  {
    var ms: seq<u16> := [1];
    assert !HasDuplicates(ms) && 0 !in ms;
    ZeroPrepended(32, ms, Some(false));
    assert [0] + ms == [0, 1];
  }

  lemma ThirtyFourConstructed()
    ensures NewBetterVersion(34, Some([1, 2, 3, 4, 5, 6]), Some(true))
            == Success(BetterVersion(34, [0, 1, 2, 3, 4, 5, 6], true))
  {
    var ms: seq<u16> := [1, 2, 3, 4, 5, 6];
    assert !HasDuplicates(ms) && 0 !in ms;
    ZeroPrepended(34, ms, Some(true));
    assert [0] + ms == [0, 1, 2, 3, 4, 5, 6];
  }

  /** The code as written builds these instead: every declaration given
      minors without 0 loses all of them. */
  const AsWrittenDeclarations := [
    BetterVersion(1, [0], false),
    BetterVersion(2, [0], false),
    BetterVersion(6, [0], false),
    BetterVersion(31, [], false),
    BetterVersion(32, [], false),
    BetterVersion(33, [0], false),
    BetterVersion(34, [], true),
    BetterVersion(37, [0], true)
  ]

  lemma AsWrittenDeclarationsAreConstructed()
    ensures NewBetterVersionAsWritten(1, None, Some(false)) == Success(AsWrittenDeclarations[0])
    ensures NewBetterVersionAsWritten(2, None, Some(false)) == Success(AsWrittenDeclarations[1])
    ensures NewBetterVersionAsWritten(6, None, Some(false)) == Success(AsWrittenDeclarations[2])
    ensures NewBetterVersionAsWritten(31, Some([1, 2, 3]), Some(false)) == Success(AsWrittenDeclarations[3])
    ensures NewBetterVersionAsWritten(32, Some([1]), Some(false)) == Success(AsWrittenDeclarations[4])
    ensures NewBetterVersionAsWritten(33, None, Some(false)) == Success(AsWrittenDeclarations[5])
    ensures NewBetterVersionAsWritten(34, Some([1, 2, 3, 4, 5, 6]), Some(true)) == Success(AsWrittenDeclarations[6])
    ensures NewBetterVersionAsWritten(37, None, Some(true)) == Success(AsWrittenDeclarations[7])
  {
  }

  /** The catalog the code as written builds from the same arguments. */
  const AsWrittenCatalog := Partition([Version(37, 0)], [Version(1, 0), Version(2, 0), Version(6, 0), Version(33, 0)])

  lemma AsWrittenCatalogIsBuilt()
    ensures CatalogOf(AsWrittenDeclarations) == AsWrittenCatalog
  {
    AsWrittenSupportedCatalog();
    AsWrittenDeprecatedCatalog();
  }

  /** Under the code as written the only supported version left in the
      example catalog is (37, 0): the seven minors of major 34 are gone. */
  lemma AsWrittenSupportedCatalog()
    ensures CatalogOf(AsWrittenDeclarations).supported == [Version(37, 0)]
  {
    var ds := AsWrittenDeclarations;
    assert ds[..1][..0] == ds[..0];
    assert Expand(ds[0]) == [Version(1, 0)];
    assert Flatten(ds[..1], true) == [];
    assert ds[..2][..1] == ds[..1];
    assert Expand(ds[1]) == [Version(2, 0)];
    assert Flatten(ds[..2], true) == [];
    assert ds[..3][..2] == ds[..2];
    assert Expand(ds[2]) == [Version(6, 0)];
    assert Flatten(ds[..3], true) == [];
    assert ds[..4][..3] == ds[..3];
    assert Expand(ds[3]) == [];
    assert Flatten(ds[..4], true) == [];
    assert ds[..5][..4] == ds[..4];
    assert Expand(ds[4]) == [];
    assert Flatten(ds[..5], true) == [];
    assert ds[..6][..5] == ds[..5];
    assert Expand(ds[5]) == [Version(33, 0)];
    assert Flatten(ds[..6], true) == [];
    assert ds[..7][..6] == ds[..6];
    assert Expand(ds[6]) == [];
    assert Flatten(ds[..7], true) == [];
    assert ds[..8][..7] == ds[..7];
    assert Expand(ds[7]) == [Version(37, 0)];
    assert Flatten(ds[..8], true) == [Version(37, 0)];
    assert ds[..8] == ds;
  }

  /** The deprecated versions left under the code as written: the minor
      0 of each deprecated major declared without minors. */
  lemma AsWrittenDeprecatedCatalog()
    ensures CatalogOf(AsWrittenDeclarations).deprecated == [Version(1, 0), Version(2, 0), Version(6, 0), Version(33, 0)]
  {
    var ds := AsWrittenDeclarations;
    assert ds[..1][..0] == ds[..0];
    assert Expand(ds[0]) == [Version(1, 0)];
    assert Flatten(ds[..1], false) == [Version(1, 0)];
    assert ds[..2][..1] == ds[..1];
    assert Expand(ds[1]) == [Version(2, 0)];
    assert Flatten(ds[..2], false) == [Version(1, 0), Version(2, 0)];
    assert ds[..3][..2] == ds[..2];
    assert Expand(ds[2]) == [Version(6, 0)];
    assert Flatten(ds[..3], false) == [Version(1, 0), Version(2, 0), Version(6, 0)];
    assert ds[..4][..3] == ds[..3];
    assert Expand(ds[3]) == [];
    assert Flatten(ds[..4], false) == [Version(1, 0), Version(2, 0), Version(6, 0)];
    assert ds[..5][..4] == ds[..4];
    assert Expand(ds[4]) == [];
    assert Flatten(ds[..5], false) == [Version(1, 0), Version(2, 0), Version(6, 0)];
    assert ds[..6][..5] == ds[..5];
    assert Expand(ds[5]) == [Version(33, 0)];
    assert Flatten(ds[..6], false) == [Version(1, 0), Version(2, 0), Version(6, 0), Version(33, 0)];
    assert ds[..7][..6] == ds[..6];
    assert Expand(ds[6]) == [];
    assert Flatten(ds[..7], false) == [Version(1, 0), Version(2, 0), Version(6, 0), Version(33, 0)];
    assert ds[..8][..7] == ds[..7];
    assert Expand(ds[7]) == [Version(37, 0)];
    assert Flatten(ds[..8], false) == [Version(1, 0), Version(2, 0), Version(6, 0), Version(33, 0)];
    assert ds[..8] == ds;
  }

  /** The example application's versioned controller: From 6, and six
      actions whose route templates are all distinct. */
  const ExampleController := Controller(Some(Version(6, 0)), None, [
    Action(None, None, [None]),
    Action(None, Some(Version(6, 0)), [Some("until-inclusive-test")]),
    Action(None, Some(Version(6, 1)), [Some("minor-range")]),
    Action(Some(Version(31, 0)), Some(Version(33, 0)), [Some("new")]),
    Action(Some(Version(34, 1)), Some(Version(34, 2)), [Some("new-only-minors")]),
    Action(None, Some(Version(31, 0)), [Some("new-till-31")])
  ])

  /** With an exclusive until the second action's range [6, 6) is empty,
      and the startup convention rejects the whole controller, whatever
      the catalog. */
  lemma ExampleControllerNeedsInclusiveUntil(cat: Partition, opts: Options)
    requires !opts.untilInclusive
    ensures ApplyTo(cat, opts, ExampleController) == Failure(RangeOrder(Version(6, 0), Version(6, 0)))
  {
    var c := ExampleController;
    assert SetMethodVersion(cat, opts, c, c.actions[0]).Success?;
    assert SetMethodVersion(cat, opts, c, c.actions[1]) == Failure(RangeOrder(Version(6, 0), Version(6, 0)));
    FirstFailureReported(cat, opts, c, c.actions);
    var i :| && 0 <= i < |c.actions|
             && SetMethodVersion(cat, opts, c, c.actions[i]) == Failure(SetMethodVersions(cat, opts, c, c.actions).error)
             && forall k :: 0 <= k < i ==> SetMethodVersion(cat, opts, c, c.actions[k]).Success?;
    assert i == 1;
  }

  /** The controller's route templates, one per action. */
  const ExampleTemplates: seq<Option<string>> :=
    [None, Some("until-inclusive-test"), Some("minor-range"), Some("new"), Some("new-only-minors"), Some("new-till-31")]

  /** They are distinct, and only one of them is null or empty. */
  lemma ExampleTemplatesDistinct()
    ensures !DuplicatesFound(ExampleTemplates)
  {
    var ts := ExampleTemplates;
    assert Some("") !in ts;
    assert !HasDuplicates(ts);
  }

  lemma ExampleTemplatesCollected()
    ensures RouteTemplates(ExampleController.actions) == ExampleTemplates
  {
    var acts := ExampleController.actions;
    assert acts[..1][..0] == acts[..0];
    assert RouteTemplates(acts[..1]) == [None];
    assert acts[..2][..1] == acts[..1];
    assert RouteTemplates(acts[..2]) == [None, Some("until-inclusive-test")];
    assert acts[..3][..2] == acts[..2];
    assert RouteTemplates(acts[..3]) == [None, Some("until-inclusive-test"), Some("minor-range")];
    assert acts[..4][..3] == acts[..3];
    assert RouteTemplates(acts[..4]) == [None, Some("until-inclusive-test"), Some("minor-range"), Some("new")];
    assert acts[..5][..4] == acts[..4];
    assert RouteTemplates(acts[..5]) == [None, Some("until-inclusive-test"), Some("minor-range"), Some("new"), Some("new-only-minors")];
    assert acts[..6][..5] == acts[..5];
    assert RouteTemplates(acts[..6]) == [None, Some("until-inclusive-test"), Some("minor-range"), Some("new"), Some("new-only-minors"), Some("new-till-31")];
    assert acts[..6] == acts;
  }

  /** With an inclusive until every action's range is ordered and the
      templates are distinct, so the controller is accepted whatever the
      catalog. */
  lemma ExampleControllerAccepted(cat: Partition, opts: Options)
    requires opts.untilInclusive
    ensures ApplyTo(cat, opts, ExampleController).Success?
    ensures ApplyTo(cat, opts, ExampleController).value.Versioned?
  {
    var c := ExampleController;
    assert forall i :: 0 <= i < |c.actions| ==> ActionAccepted(opts, c, c.actions[i]);
    ExampleTemplatesCollected();
    ExampleTemplatesDistinct();
    AcceptedExactlyWhen(cat, opts, c);
  }

  /** Over the example catalog, from 6.0 on leaves out only majors 1 and 2. */
  lemma ExampleFromSix(opts: Options)
    ensures GetVersions(ExampleCatalog, opts, Some(Version(6, 0)), None)
            == Success(Partition(ExampleCatalog.supported, ExampleCatalog.deprecated[2..]))
  {
    var cat := ExampleCatalog;
    ExampleCatalogAscending();
    assert Ascending(cat.deprecated[2..]);
    Resolves(cat, opts, Version(6, 0), None, cat.supported, cat.deprecated[2..]);
  }

  /** Over the example catalog, the bounds of the `new-only-minors` action,
      34.1 up to and including 34.2, give those two supported versions. */
  lemma ExampleNewOnlyMinors()
    ensures GetVersions(ExampleCatalog, Options(true, true), Some(Version(34, 1)), Some(Version(34, 2)))
            == Success(Partition([Version(34, 1), Version(34, 2)], []))
  {
    var cat := ExampleCatalog;
    ExampleCatalogAscending();
    Resolves(cat, Options(true, true), Version(34, 1), Some(Version(34, 2)), [Version(34, 1), Version(34, 2)], []);
  }

  /** Over the example catalog the controller is assigned the versions from 6.0 on, and
      the `new-only-minors` action, bounded by 34.1 and 34.2, in exactly
      those two supported versions. */
  lemma ExampleControllerInclusive()
    ensures var r := ApplyTo(ExampleCatalog, Options(true, true), ExampleController);
            && r.Success? && r.value.Versioned?
            && r.value.controller == Partition(ExampleCatalog.supported, ExampleCatalog.deprecated[2..])
            && r.value.actions[4] == Partition([Version(34, 1), Version(34, 2)], [])
  {
    var cat, opts, c := ExampleCatalog, Options(true, true), ExampleController;
    ExampleControllerAccepted(cat, opts);
    var r := ApplyTo(cat, opts, c).value;
    assert GetVersions(cat, opts, c.from, c.until) == Success(r.controller);
    ExampleFromSix(opts);
    var a := c.actions[4];
    assert Inherit(a.from, c.from) == Some(Version(34, 1)) && Inherit(a.until, c.until) == Some(Version(34, 2));
    assert GetVersions(cat, opts, Some(Version(34, 1)), Some(Version(34, 2))) == Success(r.actions[4]);
    ExampleNewOnlyMinors();
  }

  /** Over the catalog the code as written builds, the bounds of the
      `new-only-minors` action, 34.1 to 34.2, hold no version. */
  lemma AsWrittenNewOnlyMinors()
    ensures GetVersions(AsWrittenCatalog, Options(true, true), Some(Version(34, 1)), Some(Version(34, 2)))
            == Success(Partition([], []))
  {
    var cat := AsWrittenCatalog;
    assert Ascending(cat.supported) && Ascending(cat.deprecated);
    Resolves(cat, Options(true, true), Version(34, 1), Some(Version(34, 2)), [], []);
  }

  /** So under the code as written the example's `new-only-minors` action is
      accepted but assigned no version at all. */
  lemma AsWrittenLosesNewOnlyMinors()
    ensures var r := ApplyTo(CatalogOf(AsWrittenDeclarations), Options(true, true), ExampleController);
            && r.Success? && r.value.Versioned?
            && r.value.actions[4] == Partition([], [])
  {
    AsWrittenCatalogIsBuilt();
    ExampleControllerAccepted(AsWrittenCatalog, Options(true, true));
    AsWrittenNewOnlyMinors();
  }
}

=== FILE: sequences.dfy ===
/** Facts about sequences that the versioning model states its contracts in:
    duplicate elements (the source's `Distinct().Count()` and `GroupBy` tests)
    and order-preserving subsequences (what a LINQ `Where` returns).
 */
module Sequences {

  /** The set of elements of `s`; its size is what `Distinct().Count()` returns. */
  function Elements<T>(s: seq<T>): set<T> {
    set x | x in s
  }

  /** Some element of `s` occurs at two different positions. */
  predicate HasDuplicates<T(==)>(s: seq<T>) {
    exists i, j :: 0 <= i < j < |s| && s[i] == s[j]
  }

  /** `a` is `b` with some elements deleted and the rest kept in order. */
  ghost predicate IsSubsequence<T>(a: seq<T>, b: seq<T>)
    decreases |b|
  {
    if |b| == 0 then
      |a| == 0
    else
      || IsSubsequence(a, b[..|b| - 1])
      || (&& |a| > 0
          && a[|a| - 1] == b[|b| - 1]
          && IsSubsequence(a[..|a| - 1], b[..|b| - 1]))
  }

  /** Splitting off the last element: a duplicate in `s + [x]` is either a
      duplicate in `s` or a second occurrence of `x`. */
  lemma DuplicatesOfSnoc<T>(s: seq<T>, x: T)
    ensures HasDuplicates(s + [x]) <==> HasDuplicates(s) || x in s
  {
    var t := s + [x];
    if x in s {
      var i :| 0 <= i < |s| && s[i] == x;
      assert t[i] == t[|s|];
    }
    if HasDuplicates(t) {
      var i, j :| 0 <= i < j < |t| && t[i] == t[j];
      if j < |s| {
        assert s[i] == s[j];
      } else {
        assert s[i] == x;
      }
    }
    if HasDuplicates(s) {
      var i, j :| 0 <= i < j < |s| && s[i] == s[j];
      assert t[i] == t[j];
    }
  }

  /** A sequence has a duplicate exactly when it has fewer distinct elements
      than positions: the `Length != Distinct().Count()` test. */
  lemma {:induction false} DuplicatesIffFewerDistinct<T>(s: seq<T>)
    ensures |Elements(s)| <= |s|
    ensures HasDuplicates(s) <==> |Elements(s)| < |s|
    decreases |s|
  {
    if |s| == 0 {
      assert Elements(s) == {};
    } else {
      var t, x := s[..|s| - 1], s[|s| - 1];
      assert s == t + [x];
      DuplicatesIffFewerDistinct(t);
      DuplicatesOfSnoc(t, x);
      assert Elements(s) == Elements(t) + {x};
      if x in t {
        assert Elements(s) == Elements(t);
      } else {
        assert |Elements(s)| == |Elements(t)| + 1;
      }
    }
  }

  /** A sequence has a duplicate exactly when some element occurs more than
      once: the `GroupBy(...).Any(group => group.Count() > 1)` test. */
  lemma {:induction false} DuplicatesIffRepeatedElement<T>(s: seq<T>)
    ensures HasDuplicates(s) <==> exists x :: x in s && multiset(s)[x] > 1
    decreases |s|
  {
    if |s| == 0 {
    } else {
      var t, x := s[..|s| - 1], s[|s| - 1];
      assert s == t + [x];
      DuplicatesIffRepeatedElement(t);
      DuplicatesOfSnoc(t, x);
      assert multiset(s) == multiset(t) + multiset{x};
      if x in t {
        assert multiset(s)[x] > 1;
      } else {
        if HasDuplicates(t) {
          var y :| y in t && multiset(t)[y] > 1;
          assert y in s && multiset(s)[y] > 1;
        }
        if exists y :: y in s && multiset(s)[y] > 1 {
          var y :| y in s && multiset(s)[y] > 1;
          assert y != x;
          assert y in t && multiset(t)[y] > 1;
        }
      }
    }
  }

  /** Every element of a subsequence is an element of the whole. */
  lemma {:induction false} SubsequenceMembers<T>(a: seq<T>, b: seq<T>)
    requires IsSubsequence(a, b)
    ensures |a| <= |b|
    ensures forall x :: x in a ==> x in b
    decreases |b|
  {
    if |b| == 0 {
    } else if IsSubsequence(a, b[..|b| - 1]) {
      SubsequenceMembers(a, b[..|b| - 1]);
    } else {
      SubsequenceMembers(a[..|a| - 1], b[..|b| - 1]);
      assert a == a[..|a| - 1] + [a[|a| - 1]];
    }
  }

  /** LINQ's `Where`: the elements of `s` that satisfy `p`, in their order. */
  function Where<T(!new)>(s: seq<T>, p: T -> bool): (r: seq<T>)
    ensures forall x :: x in r <==> x in s && p(x)
    decreases |s|
  {
    if |s| == 0 then
      []
    else
      var init, last := s[..|s| - 1], s[|s| - 1];
      assert s == init + [last];
      var kept := Where(init, p);
      if p(last) then kept + [last] else kept
  }

  /** `Where` keeps each satisfying element as often as it occurs and drops
      every other one. */
  lemma {:induction false} WhereCounts<T(!new)>(s: seq<T>, p: T -> bool)
    ensures forall x :: multiset(Where(s, p))[x] == if p(x) then multiset(s)[x] else 0
    decreases |s|
  {
    if |s| > 0 {
      var init, last := s[..|s| - 1], s[|s| - 1];
      assert s == init + [last];
      WhereCounts(init, p);
    }
  }

  /** `Where` keeps the order of what it keeps. */
  lemma {:induction false} WhereIsSubsequence<T(!new)>(s: seq<T>, p: T -> bool)
    ensures IsSubsequence(Where(s, p), s)
    decreases |s|
  {
    if |s| > 0 {
      var init, last := s[..|s| - 1], s[|s| - 1];
      WhereIsSubsequence(init, p);
      var kept := Where(init, p);
      if p(last) {
        assert (kept + [last])[..|kept|] == kept;
      }
    }
  }

  /** `Where` only depends on the values its predicate takes. */
  lemma {:induction false} WhereExtensional<T(!new)>(s: seq<T>, p: T -> bool, q: T -> bool)
    requires forall x :: p(x) == q(x)
    ensures Where(s, p) == Where(s, q)
    decreases |s|
  {
    if |s| > 0 {
      WhereExtensional(s[..|s| - 1], p, q);
    }
  }

  /** Two successive `Where`s are one `Where` by the conjunction. */
  lemma {:induction false} WhereFusion<T(!new)>(s: seq<T>, p: T -> bool, q: T -> bool, pq: T -> bool)
    requires forall x :: pq(x) == (p(x) && q(x))
    ensures Where(Where(s, p), q) == Where(s, pq)
    decreases |s|
  {
    if |s| > 0 {
      var init, last := s[..|s| - 1], s[|s| - 1];
      WhereFusion(init, p, q, pq);
      var inner := Where(init, p);
      if p(last) {
        assert Where(s, p) == inner + [last];
        assert (inner + [last])[..|inner|] == inner;
      }
    }
  }

  /** A weaker predicate keeps everything a stronger one keeps, in order. */
  lemma {:induction false} WhereMonotone<T(!new)>(s: seq<T>, p: T -> bool, q: T -> bool)
    requires forall x :: p(x) ==> q(x)
    ensures IsSubsequence(Where(s, p), Where(s, q))
    decreases |s|
  {
    if |s| > 0 {
      var init, last := s[..|s| - 1], s[|s| - 1];
      WhereMonotone(init, p, q);
      var a, b := Where(init, p), Where(init, q);
      if p(last) {
        assert (a + [last])[..|a|] == a;
        assert (b + [last])[..|b|] == b;
      } else if q(last) {
        assert (b + [last])[..|b|] == b;
      }
    }
  }

  /** A predicate that holds throughout `s` keeps all of it. */
  lemma {:induction false} WhereKeepsAll<T(!new)>(s: seq<T>, p: T -> bool)
    requires forall i :: 0 <= i < |s| ==> p(s[i])
    ensures Where(s, p) == s
    decreases |s|
  {
    if |s| > 0 {
      WhereKeepsAll(s[..|s| - 1], p);
      assert s == s[..|s| - 1] + [s[|s| - 1]];
    }
  }
}

=== FILE: versions.dfy ===
/** The version catalog and range resolution of `Versions` (src/Versions.cs):
    the declarations are flattened once into a supported and a deprecated list
    of versions, and an endpoint's from/until bounds select from both lists
    with one shared filter.
 */
module Versions {
  import opened Wrappers
  import opened Errors
  import opened ApiVersion
  import opened Sequences
  import opened Models

  /** A supported and a deprecated list of versions: both the catalog the
      constructor builds and the pair `GetVersions` returns. */
  datatype Partition = Partition(supported: seq<Version>, deprecated: seq<Version>)

  /** The versions one declaration contributes: its major with each of its
      minors, in the order of the minors. */
  function Expand(d: BetterVersion): seq<Version> {
    seq(|d.minors|, i requires 0 <= i < |d.minors| => Version(d.major, d.minors[i]))
  }

  /** The versions of the declarations whose supported flag is `supported`,
      in declaration order and then minor order. */
  function Flatten(ds: seq<BetterVersion>, supported: bool): seq<Version>
    decreases |ds|
  {
    if |ds| == 0 then
      []
    else
      var last := ds[|ds| - 1];
      Flatten(ds[..|ds| - 1], supported) + (if last.supported == supported then Expand(last) else [])
  }

  /** The catalog a duplicate-free list of declarations builds. */
  function CatalogOf(ds: seq<BetterVersion>): Partition {
    Partition(Flatten(ds, true), Flatten(ds, false))
  }

  /** Two declarations share a major version. */
  predicate HasDuplicateMajor(ds: seq<BetterVersion>) {
    exists i, j :: 0 <= i < j < |ds| && ds[i].major == ds[j].major
  }

  /** The constructor `new Versions(versions, options)`: rejects a repeated
      major version whatever the supported flags, and otherwise appends each
      declaration's versions to the list its flag selects. Nothing is sorted. */
  method Build(ds: seq<BetterVersion>) returns (r: Result<Partition, Error>)
    ensures r.Failure? <==> HasDuplicateMajor(ds)
    ensures r.Failure? ==>
              && r.error.DuplicateMajor?
              && exists i, j :: 0 <= i < j < |ds| && ds[i].major == r.error.major && ds[j].major == r.error.major
    ensures r.Success? ==> r.value == CatalogOf(ds)
  {
    var supported: seq<Version> := [];
    var deprecated: seq<Version> := [];
    var majors: set<u16> := {};
    for n := 0 to |ds|
      invariant forall m :: m in majors <==> exists k :: 0 <= k < n && ds[k].major == m
      invariant forall k, l :: 0 <= k < l < n ==> ds[k].major != ds[l].major
      invariant supported == Flatten(ds[..n], true)
      invariant deprecated == Flatten(ds[..n], false)
    {
      var d := ds[n];
      assert ds[..n + 1][..n] == ds[..n];
      if d.major in majors {
        var k :| 0 <= k < n && ds[k].major == d.major;
        return Failure(DuplicateMajor(d.major));
      }
      majors := majors + {d.major};
      if d.supported {
        supported := supported + Expand(d);
      } else {
        deprecated := deprecated + Expand(d);
      }
    }
    assert ds[..|ds|] == ds;
    return Success(Partition(supported, deprecated));
  }

  /** A version belongs to the flattened list exactly when a declaration with
      that flag and major lists its minor. */
  lemma {:induction false} FlattenMembers(ds: seq<BetterVersion>, supported: bool, v: Version)
    ensures v in Flatten(ds, supported) <==>
              exists i :: 0 <= i < |ds| && ds[i].supported == supported && ds[i].major == v.major && v.minor in ds[i].minors
    decreases |ds|
  {
    if |ds| > 0 {
      var init, last := ds[..|ds| - 1], ds[|ds| - 1];
      FlattenMembers(init, supported, v);
      if v in Expand(last) && last.supported == supported {
        var k :| 0 <= k < |last.minors| && Expand(last)[k] == v;
        assert last.minors[k] == v.minor;
      }
      if exists i :: 0 <= i < |ds| && ds[i].supported == supported && ds[i].major == v.major && v.minor in ds[i].minors {
        var i :| 0 <= i < |ds| && ds[i].supported == supported && ds[i].major == v.major && v.minor in ds[i].minors;
        if i == |ds| - 1 {
          var k :| 0 <= k < |last.minors| && last.minors[k] == v.minor;
          assert Expand(last)[k] == v;
        } else {
          assert init[i] == ds[i];
        }
      }
    }
  }

  /** With distinct majors no version is both supported and deprecated. */
  lemma CatalogIsDisjoint(ds: seq<BetterVersion>, v: Version)
    requires !HasDuplicateMajor(ds)
    ensures !(v in CatalogOf(ds).supported && v in CatalogOf(ds).deprecated)
  {
    FlattenMembers(ds, true, v);
    FlattenMembers(ds, false, v);
  }

  /** The number of versions in both lists is the total number of minors. */
  function MinorCount(ds: seq<BetterVersion>): nat
    decreases |ds|
  {
    if |ds| == 0 then 0 else MinorCount(ds[..|ds| - 1]) + |ds[|ds| - 1].minors|
  }

  /** Every declared minor lands in exactly one of the two lists. */
  lemma {:induction false} CatalogSize(ds: seq<BetterVersion>)
    ensures |CatalogOf(ds).supported| + |CatalogOf(ds).deprecated| == MinorCount(ds)
    decreases |ds|
  {
    if |ds| > 0 {
      CatalogSize(ds[..|ds| - 1]);
    }
  }

  /** Whether `v` passes the bounds: `v >= from`, and below `until` (or up to
      and including it under `UntilInclusive`) when an until is given. */
  predicate InRange(opts: Options, from: Version, until: Option<Version>, v: Version) {
    && LessEq(from, v)
    && match until
       case None => true
       case Some(u) => if opts.untilInclusive then LessEq(v, u) else Less(v, u)
  }

  /** `InRange` as a predicate value, for `Where`. */
  function Admits(opts: Options, from: Version, until: Option<Version>): Version -> bool {
    v => InRange(opts, from, until, v)
  }

  /** `ApplyVersionFilters`: a `Where(version >= from)`, followed when an
      until is given by `Where(version <= until)` or `Where(version < until)`. */
  function ApplyVersionFilters(opts: Options, from: Version, until: Option<Version>, vs: seq<Version>)
    : (r: seq<Version>)
    ensures forall v :: v in r <==> v in vs && InRange(opts, from, until, v)
    ensures forall v :: multiset(r)[v] == if InRange(opts, from, until, v) then multiset(vs)[v] else 0
    ensures IsSubsequence(r, vs)
    ensures r == Where(vs, Admits(opts, from, until))
  {
    var admits := Admits(opts, from, until);
    var atLeastFrom := v => LessEq(from, v);
    var fromOn := Where(vs, atLeastFrom);
    var r := match until
      case None => fromOn
      case Some(u) => Where(fromOn, if opts.untilInclusive then v => LessEq(v, u) else v => Less(v, u));
    assert r == Where(vs, admits) by {
      if until.None? {
        WhereExtensional(vs, atLeastFrom, admits);
      } else {
        var u := until.value;
        WhereFusion(vs, atLeastFrom, if opts.untilInclusive then v => LessEq(v, u) else v => Less(v, u), admits);
      }
    }
    WhereCounts(vs, admits);
    WhereIsSubsequence(vs, admits);
    r
  }

  /** The from/until order `GetSupportedVersions` accepts: from strictly
      before until, or equal to it under `UntilInclusive`. */
  predicate RangeOrdered(opts: Options, from: Version, until: Version) {
    Less(from, until) || (from == until && opts.untilInclusive)
  }

  /** `GetVersions(from, until)`: a null from fails first; with an until,
      `from > until` fails, and so does `from == until` unless the until is
      inclusive. These checks run before either list is filtered; then both
      lists pass through the same filter. */
  function GetVersions(cat: Partition, opts: Options, from: Option<Version>, until: Option<Version>)
    : (r: Result<Partition, Error>)
    ensures from.None? ==> r == Failure(MissingFrom)
    ensures from.Some? ==> (r.Failure? <==> until.Some? && !RangeOrdered(opts, from.value, until.value))
    ensures from.Some? && r.Failure? ==> r.error == RangeOrder(from.value, until.value)
    ensures r.Success? ==>
              forall v :: v in r.value.supported <==> v in cat.supported && InRange(opts, from.value, until, v)
    ensures r.Success? ==>
              forall v :: v in r.value.deprecated <==> v in cat.deprecated && InRange(opts, from.value, until, v)
    ensures r.Success? ==>
              IsSubsequence(r.value.supported, cat.supported) && IsSubsequence(r.value.deprecated, cat.deprecated)
  {
    if from.None? then
      Failure(MissingFrom)
    else if until.Some? && Less(until.value, from.value) then
      Failure(RangeOrder(from.value, until.value))
    else if until.Some? && !opts.untilInclusive && from.value == until.value then
      Failure(RangeOrder(from.value, until.value))
    else
      Success(Partition(ApplyVersionFilters(opts, from.value, until, cat.supported),
                        ApplyVersionFilters(opts, from.value, until, cat.deprecated)))
  }

  /** Range `(o2, f2, u2)` admits at least what `(o1, f1, u1)` admits: a lower
      or equal from, and no until, or an until at least as high (strictly
      higher when the narrower until is inclusive and the wider one is not). */
  predicate Widens(o1: Options, f1: Version, u1: Option<Version>, o2: Options, f2: Version, u2: Option<Version>) {
    && LessEq(f2, f1)
    && (u2.None? ||
        (&& u1.Some?
         && LessEq(u1.value, u2.value)
         && (o1.untilInclusive && !o2.untilInclusive ==> Less(u1.value, u2.value))))
  }

  /** A wider range admits every version the narrower one admits. */
  lemma WiderAdmitsMore(o1: Options, f1: Version, u1: Option<Version>,
                        o2: Options, f2: Version, u2: Option<Version>, v: Version)
    requires Widens(o1, f1, u1, o2, f2, u2)
    requires InRange(o1, f1, u1, v)
    ensures InRange(o2, f2, u2, v)
  {
  }

  /** A wider range of a well-ordered range is well ordered. */
  lemma WiderStaysOrdered(o1: Options, f1: Version, u1: Option<Version>,
                          o2: Options, f2: Version, u2: Option<Version>)
    requires Widens(o1, f1, u1, o2, f2, u2)
    requires u1.Some? ==> RangeOrdered(o1, f1, u1.value)
    ensures u2.Some? ==> RangeOrdered(o2, f2, u2.value)
  {
  }

  /** Widening the range only adds versions: each result of the narrower
      query is a subsequence of the wider query's result. */
  lemma WideningOnlyAdds(cat: Partition, o1: Options, f1: Version, u1: Option<Version>,
                         o2: Options, f2: Version, u2: Option<Version>)
    requires Widens(o1, f1, u1, o2, f2, u2)
    requires GetVersions(cat, o1, Some(f1), u1).Success?
    ensures GetVersions(cat, o2, Some(f2), u2).Success?
    ensures IsSubsequence(GetVersions(cat, o1, Some(f1), u1).value.supported,
                          GetVersions(cat, o2, Some(f2), u2).value.supported)
    ensures IsSubsequence(GetVersions(cat, o1, Some(f1), u1).value.deprecated,
                          GetVersions(cat, o2, Some(f2), u2).value.deprecated)
  {
    WiderStaysOrdered(o1, f1, u1, o2, f2, u2);
    var p, q := Admits(o1, f1, u1), Admits(o2, f2, u2);
    forall v | p(v)
      ensures q(v)
    {
      WiderAdmitsMore(o1, f1, u1, o2, f2, u2, v);
    }
    var narrow := GetVersions(cat, o1, Some(f1), u1).value;
    var wide := GetVersions(cat, o2, Some(f2), u2).value;
    assert narrow.supported == Where(cat.supported, p) && narrow.deprecated == Where(cat.deprecated, p);
    assert wide.supported == Where(cat.supported, q) && wide.deprecated == Where(cat.deprecated, q);
    WhereMonotone(cat.supported, p, q);
    WhereMonotone(cat.deprecated, p, q);
  }

  /** Resolving from a version no catalog entry precedes, with no until,
      returns the whole catalog unchanged. */
  lemma FromMinimumIsWholeCatalog(cat: Partition, opts: Options, from: Version)
    requires forall i :: 0 <= i < |cat.supported| ==> LessEq(from, cat.supported[i])
    requires forall i :: 0 <= i < |cat.deprecated| ==> LessEq(from, cat.deprecated[i])
    ensures GetVersions(cat, opts, Some(from), None) == Success(cat)
  {
    WhereKeepsAll(cat.supported, Admits(opts, from, None));
    WhereKeepsAll(cat.deprecated, Admits(opts, from, None));
  }

  /** The results stay ascending when the catalog lists are ascending. */
  lemma ResultsKeepCatalogOrder(cat: Partition, opts: Options, from: Option<Version>, until: Option<Version>)
    requires Ascending(cat.supported) && Ascending(cat.deprecated)
    requires GetVersions(cat, opts, from, until).Success?
    ensures Ascending(GetVersions(cat, opts, from, until).value.supported)
    ensures Ascending(GetVersions(cat, opts, from, until).value.deprecated)
  {
    var r := GetVersions(cat, opts, from, until).value;
    SubsequenceKeepsAscending(r.supported, cat.supported);
    SubsequenceKeepsAscending(r.deprecated, cat.deprecated);
  }

  /** A built catalog's results never share a version between the supported
      and the deprecated list. */
  lemma ResultsAreDisjoint(ds: seq<BetterVersion>, opts: Options, from: Option<Version>, until: Option<Version>, v: Version)
    requires !HasDuplicateMajor(ds)
    requires GetVersions(CatalogOf(ds), opts, from, until).Success?
    ensures !(v in GetVersions(CatalogOf(ds), opts, from, until).value.supported &&
              v in GetVersions(CatalogOf(ds), opts, from, until).value.deprecated)
  {
    CatalogIsDisjoint(ds, v);
  }
}

=== FILE: wrappers.dfy ===
/** Failure-compatible datatypes used throughout the model: an optional value
    (the source's nullable references) and a result that either carries a
    value or the error that aborted the computation (the source's exceptions).
 */
module Wrappers {

  /** A value that may be absent; `None` stands for C#'s `null`. */
  datatype Option<+T> = None | Some(value: T) {

    /** The value, or `default` when absent (C#'s `??` operator). */
    function GetOr(default: T): T {
      match this
      case Some(v) => v
      case None => default
    }
  }

  /** Either a value or the error that a thrown exception stands for. */
  datatype Result<+T, +E> = Success(value: T) | Failure(error: E) {

    predicate IsFailure() {
      Failure?
    }

    function PropagateFailure<U>(): Result<U, E>
      requires Failure?
    {
      Failure(error)
    }

    function Extract(): T
      requires Success?
    {
      value
    }
  }

  /** A check that either passes or fails with an error; it carries no value. */
  datatype Outcome<+E> = Pass | Fail(error: E)
}

/** The failure kinds the versioning core can raise. Exception types and
    message texts are not modelled; there is one constructor per failure
    kind, carrying, where there are any, the values that identify the
    failing input.
 */
module Errors {
  import opened ApiVersion

  datatype Error =
      /** `BetterVersion`: the minor versions contain a duplicate. */
    | DuplicateMinors
      /** `Versions`: two declarations share this major version. */
    | DuplicateMajor(major: u16)
      /** `Versions.GetVersions`: the from bound is null. */
    | MissingFrom
      /** A from/until pair in the wrong order: a controller's `until <= from`,
          or in `GetVersions` a `from > until` or an exclusive `from == until`. */
    | RangeOrder(from: Version, until: Version)
      /** A method's own from lies before its controller's from. */
    | MethodBeforeController(methodFrom: Version, controllerFrom: Version)
      /** A controller's actions declare the same route template twice. */
    | DuplicateEndpoints
}
